=== FILE: README.md ===
# Resume generator core, modelled in Dafny

`Addition_Of_two_v2.py` is a desktop tool that turns a JSON resume into a
DOCX document and, optionally, a PDF. This project models its core as pure
Dafny functions over immutable datatypes and proves properties of them. The
core has five parts:

- **Keyword highlighting** (`make_text_bold_for_skills`), in `highlight.dfy`.
  The keywords are stably sorted longest first, joined into one alternation of
  whole-word, case-insensitive patterns, and scanned left to right the way
  `re.finditer` does. The text is then cut into plain runs and bold runs. A
  reference specification (`Preferred`, `Tiles`) says what the output should
  be without mentioning sorting or scanning: the longest matching keyword wins
  at each position, and the earliest listed wins among equally long ones. The
  highlighter is proved to meet that specification and to give back the text
  exactly. For non-empty text it is also the only sequence of runs that meets
  the specification while having no empty run and no two adjacent plain runs.
  Without those two conditions, a plain stretch could be split into several
  plain runs and still tile the text.
- **File-name derivation** (`update_filename_from_json` and the name check in
  `generate_resume`), in `filename.dfy`, with the string helpers in
  `text.dfy`.
- **The contact line** (the contact parts and `add_hyperlinked_paragraph`), in
  `contacts.dfy`.
- **Section assembly** (header, summary, skills, experience, education,
  certifications), in `layout.dfy`. The document is a sequence of blocks;
  python-docx's paragraph objects are not modelled.
- **Export**: the PDF conversion chain (`convert_docx_to_pdf_multiple_methods`)
  in `convert.dfy`, and the format flow of `generate_resume_from_json` in
  `export.dfy`.

`wrappers.dfy` holds the `Option` and `Result` types.

The tools the program runs are not modelled: Word automation, LibreOffice and
docx2pdf. An oracle parameter says, for each strategy, whether the call
raised, the return code, and whether the tool wrote the PDF. The file system
is reduced to the DOCX and the PDF at the two derived paths.

The model follows the code in these places, which a reader might not expect:

- The fixed LibreOffice install locations are tried after any failure of
  LibreOffice on the search path, not only when it is missing.
- Every listed location that exists is tried, in list order.
- Only the legacy email and phone are checked for duplicates. The legacy
  portfolio and LinkedIn links are appended even when the same link is already
  there.
- "Both" reports success even when every conversion strategy fails.
- A failed "PDF Only" run leaves the DOCX on disk.

## Model

| member | source | states |
|---|---|---|
| Text.Strip | Addition_Of_two_v2.py:330 | `str.strip()` returns the slice of the input between a leading and a trailing run of whitespace, and the slice neither starts nor ends with whitespace |
| Text.UpperString | Addition_Of_two_v2.py:647 | the heading text has the input's length, with each lower-case ASCII letter upper-cased and every other character kept |
| Text.ReplaceSpaces | Addition_Of_two_v2.py:566 | `replace(' ', '_')` changes each blank to an underscore and keeps every other character in place |
| Text.JoinLength | Addition_Of_two_v2.py:749 | `", ".join(parts)` is exactly as long as the parts plus one separator between each pair |
| Highlight.FirstMatch | Addition_Of_two_v2.py:470-473 | the alternation matches at a position exactly when some keyword's `\b`-bounded, case-insensitive pattern matches there, and what it picks is such a keyword |
| Highlight.FirstMatchIsFirst | Addition_Of_two_v2.py:470-473 | the alternative the alternation picks is the first one in pattern order that matches; no earlier alternative matches |
| Highlight.MatchIgnoresKeywordCase | Addition_Of_two_v2.py:460-461 | under IGNORECASE, two keywords that are equal up to ASCII case match at exactly the same positions of the text |
| Highlight.MatchAt | Addition_Of_two_v2.py:456-473 | the definition of one alternative of the pattern: the keyword matches at a position ignoring ASCII case, with a word boundary (`\b`) on both sides; its properties are the rows around it |
| Highlight.InsertByLength | Addition_Of_two_v2.py:454 | inserting a keyword into a longest-first list keeps it longest first and adds exactly that keyword |
| Highlight.SortByLength | Addition_Of_two_v2.py:454 | `sorted(skills, key=len, reverse=True)` yields a longest-first permutation of the keywords, and no keyword becomes empty |
| Highlight.Preferred | Addition_Of_two_v2.py:453-454 | reference choice at a position: nothing exactly when no keyword matches; otherwise the longest matching keyword, the earliest listed among equally long ones |
| Highlight.PreferredUnique | Addition_Of_two_v2.py:453-454 | at most one keyword is the preferred one at a position |
| Highlight.FirstMatchInsert | Addition_Of_two_v2.py:454-473 | inserting a keyword into the sorted list changes the alternation's pick exactly when the new keyword matches and is longer than the old pick |
| Highlight.SortedFirstMatchIsPreferred | Addition_Of_two_v2.py:453-473 | the alternation over the longest-first list picks exactly the reference keyword at every position: sorting is what makes longer keywords win |
| Highlight.Scan | Addition_Of_two_v2.py:473 | `finditer`'s matches are ordered, disjoint, non-empty and inside the text |
| Highlight.ScanFindsFirst | Addition_Of_two_v2.py:473 | the scan reports a match at each position where the alternation matches and that is not covered by an earlier match, and at no other position |
| Highlight.FindsFirstMeetsSpec | Addition_Of_two_v2.py:453-473 | when the pattern list picks the reference keyword everywhere, the scan's matches are the reference keywords, with no keyword match in the gaps |
| Highlight.ScanMeetsSpec | Addition_Of_two_v2.py:452-473 | the scan over the sorted alternation meets the reference: each reported match is the preferred keyword at its start, and no keyword matches at any skipped position |
| Highlight.EmitRuns | Addition_Of_two_v2.py:483-512 | the loop's runs spell out the text from the start position, all in the chosen font and size, with no empty run and no two plain runs side by side |
| Highlight.EmitStep | Addition_Of_two_v2.py:485-504 | one loop step (a plain gap if any, then the bold match) extends a run sequence for the rest of the text into one for the text from the previous match end |
| Highlight.EmitTiles | Addition_Of_two_v2.py:483-512 | runs built from reference matches tile the text: a bold run is exactly the preferred keyword at its start, and no keyword match starts inside a plain run |
| Highlight.TilesConcat | Addition_Of_two_v2.py:483-512 | any tiling spells out the remaining text exactly |
| Highlight.HighlightMeetsSpec | Addition_Of_two_v2.py:443-512 | the highlighter's runs tile the text under the reference choice and carry the chosen font and size; for non-empty text no run is empty and no two plain runs are adjacent |
| Highlight.HighlightStyled | Addition_Of_two_v2.py:447-512 | every run added for a text carries the chosen font and size |
| Highlight.HighlightRuns | Addition_Of_two_v2.py:443-512 | `make_text_bold_for_skills`: at least one run, every run in the chosen font and size, and the run texts concatenate to the input (the one-plain-run degenerate case is Highlight.HighlightDegenerate) |
| Highlight.HighlightRoundTrip | Addition_Of_two_v2.py:443-512 | concatenating the runs gives back the input text: highlighting only changes formatting |
| Highlight.HighlightDegenerate | Addition_Of_two_v2.py:445-480 | with no keywords, an empty text, or no keyword matching anywhere, the output is one plain run holding the whole text |
| Highlight.TilingUnique | Addition_Of_two_v2.py:483-512 | two tilings of a text without empty runs and without adjacent plain runs cut it identically |
| Highlight.HeadsAgree | Addition_Of_two_v2.py:483-504 | two such tilings from the same position begin with the same run |
| Highlight.MatchAfterPlain | Addition_Of_two_v2.py:489-504 | a plain run that stops before the end of the text is followed by a keyword match |
| Highlight.HighlightIsOnlyTiling | Addition_Of_two_v2.py:443-512 | for non-empty text, any styled run sequence with no empty run and no two adjacent plain runs that meets the reference specification is the highlighter's output |
| Filename.KeepAllowed | Addition_Of_two_v2.py:334 | the result holds only characters in `[\w\s-]` and is no longer than the input |
| Filename.KeepAllowedAppend | Addition_Of_two_v2.py:334 | deletion works character by character: the kept characters of two texts placed one after the other are those of the first followed by those of the second, so the survivors keep their order |
| Filename.KeepAllowedCounts | Addition_Of_two_v2.py:334 | each allowed character survives as often as it occurs, and every other character is gone |
| Filename.KeepAllowedIdentity | Addition_Of_two_v2.py:334 | text made only of allowed characters is left as it is |
| Filename.CollapseSpaces | Addition_Of_two_v2.py:335 | the result is no longer than the input and holds no whitespace |
| Filename.CollapseIsUnderscored | Addition_Of_two_v2.py:335 | the collapse equals an independent left-to-right reading: a whitespace character right after another is dropped, any other whitespace character becomes `_`, every other character (an underscore included) is kept |
| Filename.CollapseKeepsContent | Addition_Of_two_v2.py:335 | collapsing changes only whitespace and underscores; every other character survives, in order |
| Filename.CollapseIdentity | Addition_Of_two_v2.py:335 | text without whitespace is left as it is |
| Filename.CollapseIdempotent | Addition_Of_two_v2.py:335 | collapsing twice gives the same as collapsing once |
| Filename.CollapseOnlyUnderscores | Addition_Of_two_v2.py:335 | collapsing introduces no character except the underscore |
| Filename.CollapseRun | Addition_Of_two_v2.py:335 | a maximal whitespace run, of any length and any whitespace characters, becomes exactly one underscore, and the text around it is kept |
| Filename.CollapseAfterWord | Addition_Of_two_v2.py:335 | a whitespace-free prefix passes through the collapse unchanged |
| Filename.CleanTitle | Addition_Of_two_v2.py:330-335 | the cleaned title holds only word characters and hyphens, and is exactly the left-to-right reading of the sanitised stripped title: each whitespace run one `_`, every other kept character (the title's own underscores included) in place |
| Filename.Derive | Addition_Of_two_v2.py:326-338 | the derived name starts with `Yallaiah_` and holds no whitespace; an empty stripped title gives the default name; otherwise the part after the prefix holds only word characters and hyphens and is exactly the sanitised stripped title with each whitespace run turned into one `_` |
| Filename.Choose | Addition_Of_two_v2.py:564-573 | the chosen name is either the user's or the derived one. A non-empty title replaces the user's name exactly when that name does not start with the prefix and the title with blanks turned into underscores. An empty title replaces only the configured default, and gives the default name |
| Filename.ChooseIdempotent | Addition_Of_two_v2.py:564-573 | choosing the name again with the same title changes nothing |
| Filename.ChooseKeepsUnsanitised | Addition_Of_two_v2.py:566-569 | the starts-with check uses the raw title, so a name holding a character the sanitiser would delete is kept, and it differs from every derived name |
| Contacts.StructuredParts | Addition_Of_two_v2.py:710-719 | the structured record contributes at most four parts |
| Contacts.StructuredOrder | Addition_Of_two_v2.py:712-719 | with every field present, the parts are portfolio, LinkedIn, `mailto:` email and `tel:` phone, in that order |
| Contacts.AddUnlessLabelled | Addition_Of_two_v2.py:726-729 | a legacy email or phone is appended exactly when it is present and no part already shows it; afterwards some part shows it |
| Contacts.ContactPartsShape | Addition_Of_two_v2.py:710-729 | the structured parts come first and in order, every part is one of the four kinds with its label and target, and there are at most eight parts |
| Contacts.ContactPartsLayout | Addition_Of_two_v2.py:712-729 | the contact list is the structured parts, then the legacy portfolio and LinkedIn whenever present, then the legacy email unless a structured part shows it or it equals the label of a legacy link, then the legacy phone under the same test, also skipped when it equals an email just added |
| Contacts.ContactParts | Addition_Of_two_v2.py:712-729 | the definition of the list: structured parts, the two legacy links, then the legacy email and phone through Contacts.AddUnlessLabelled; Contacts.ContactPartsLayout and Contacts.ContactPartsShape state its content |
| Contacts.LegacyLinksLabel | Addition_Of_two_v2.py:720-723 | a legacy link shows a text exactly when that text is its fixed label, `Portfolio` or `LinkedIn`, and the link is present |
| Contacts.LegacyEmailDeduplicated | Addition_Of_two_v2.py:726-727 | a legacy email is always shown by some part; when an earlier part already shows it, no email part is added and only the legacy phone, under its own test, may follow |
| Contacts.SameEmailLinkedOnce | Addition_Of_two_v2.py:716-727 | an email given both ways is linked once |
| Contacts.LegacyPortfolioDuplicated | Addition_Of_two_v2.py:712-723 | a portfolio given both ways is linked twice; the legacy portfolio is not deduplicated |
| Contacts.LinkLine | Addition_Of_two_v2.py:673-704 | the paragraph holds 2n-1 pieces for n parts: links at even positions, in part order, and the vertical-bar separator at odd positions, all in the chosen font |
| Contacts.BuildLinkLine | Addition_Of_two_v2.py:677-704 | the loop over the parts, adding a separator after every part but the last, builds exactly that paragraph |
| Contacts.LinkLineUnique | Addition_Of_two_v2.py:677-704 | the link-and-separator layout determines the paragraph |
| Contacts.LinkLineRoundTrip | Addition_Of_two_v2.py:677-701 | reading back the hyperlinks gives the parts, in order |
| Contacts.LinkLineSeparators | Addition_Of_two_v2.py:702-704 | a paragraph of n parts has exactly n-1 separators |
| Layout.HeadingRun | Addition_Of_two_v2.py:644-650 | a heading is one bold run in the body font and size, holding the title upper-cased character by character |
| Layout.HighlightedBullets | Addition_Of_two_v2.py:662-671 | one bullet per item, in order, holding the item's highlighted runs |
| Layout.SkillLines | Addition_Of_two_v2.py:742-751 | one line per skill category, in order: the bold `"• category: "` and the skills joined with `", "` |
| Layout.JobBlocks | Addition_Of_two_v2.py:756-808 | a job fails exactly when its role or company is missing, and the role is checked first |
| Layout.JobsBlocks | Addition_Of_two_v2.py:756-808 | the experience fails exactly when some job lacks a role or a company |
| Layout.CertificationBullets | Addition_Of_two_v2.py:833-838 | one bullet per certification, holding it as a single plain run |
| Layout.RenderFailsIffKeyMissing | Addition_Of_two_v2.py:706-808 | rendering fails exactly when the name is missing or some job lacks a role or a company; a missing name is reported as such |
| Layout.Render | Addition_Of_two_v2.py:706-838 | the definition of the document: the name read first, then the header and the five sections in their fixed order, the experience able to abort with the missing key; its properties are the Layout rows that follow |
| Layout.Header | Addition_Of_two_v2.py:706-732 | the definition of the header: the bold name three points larger, the title line, and the contact paragraph when the contact list is non-empty; Layout.RenderHeader and Layout.HeaderStyled state its properties |
| Layout.RenderHeader | Addition_Of_two_v2.py:706-732 | the document starts with the bold name three points larger, then the title (even when empty), then the contact line exactly when there are contact parts |
| Layout.HeaderThen | Addition_Of_two_v2.py:706-732 | the header's blocks stay in front of anything that follows without a contact line |
| Layout.SectionsNoLinks | Addition_Of_two_v2.py:734-838 | no contact line appears after the header |
| Layout.ExperienceNoLinks | Addition_Of_two_v2.py:753-808 | the experience section holds no contact line and no centred line |
| Layout.JobsBlocksShape | Addition_Of_two_v2.py:756-808 | the jobs' blocks are body paragraphs and bullets only |
| Layout.JobShape | Addition_Of_two_v2.py:757-808 | one job's blocks are body paragraphs and bullets only |
| Layout.RenderHeadings | Addition_Of_two_v2.py:734-838 | the headings are summary, skills, experience, education, certifications, in that order, each exactly when its field is present |
| Layout.SectionsHeadings | Addition_Of_two_v2.py:734-838 | the sections after the header carry exactly the expected headings |
| Layout.HeadingTextsOfFive | Addition_Of_two_v2.py:734-838 | the headings of five consecutive sections are their headings in order |
| Layout.SectionHeadings | Addition_Of_two_v2.py:734-838 | each section has its own heading when its field is present and none otherwise |
| Layout.ExperienceHeadings | Addition_Of_two_v2.py:754-755 | the experience section has its heading exactly when there are jobs, and no other heading |
| Layout.EducationHeadings | Addition_Of_two_v2.py:811-812 | the education section has its heading exactly when the record is present |
| Layout.TitledHeadings | Addition_Of_two_v2.py:734-838 | a section is one heading followed by blocks that are not headings |
| Layout.HeaderNoHeadings | Addition_Of_two_v2.py:706-732 | the header holds no section heading |
| Layout.HeadingTextsAppend | Addition_Of_two_v2.py:734-838 | the headings of two block sequences placed one after the other are the headings of each, in order |
| Layout.NameOnly | Addition_Of_two_v2.py:706-732 | a resume with only a name renders as the name and an empty title line |
| Layout.RenderStyled | Addition_Of_two_v2.py:633-838 | the first block is the name, bold, three points above the body size; in every later centred line, body paragraph and bullet each run is in the chosen font at the body size (headings take theirs from Layout.HeadingRun), except a client line's duration, which is one point below it; contact links and separators carry the chosen font |
| Layout.JobsStyled | Addition_Of_two_v2.py:756-808 | every run of the experience entries is in the chosen font at the body size, except the durations, one point below |
| Layout.JobStyled | Addition_Of_two_v2.py:757-808 | every run of one job is in the chosen font at the body size except the duration; the client line has a second run exactly when a duration is given, and that run is one point smaller |
| Layout.SectionsStyled | Addition_Of_two_v2.py:734-838 | every run of the sections after the header is in the chosen font at the body size, except the job durations, one point below |
| Layout.HeaderStyled | Addition_Of_two_v2.py:706-732 | the name line is one bold run three points above the body size; the title line is at the body size; contact links and separators carry the chosen font |
| Layout.BulletsStyled | Addition_Of_two_v2.py:662-671 | every run of a highlighted bullet is in the chosen font at the body size |
| Layout.StyledAppend | Addition_Of_two_v2.py:633-838 | styled block sequences stay styled when placed one after the other |
| Layout.ParagraphsAppend | Addition_Of_two_v2.py:756-808 | sequences of body paragraphs and bullets stay so when placed one after the other |
| Layout.BulletsRoundTrip | Addition_Of_two_v2.py:662-671 | each bullet's runs spell out its item exactly |
| Layout.CertificationsNeverBold | Addition_Of_two_v2.py:833-838 | certification bullets are one plain run each and are never highlighted, whatever the keywords |
| Layout.EducationLine | Addition_Of_two_v2.py:815-823 | for every presence pattern, the clauses are degree, field, `at institution` and `(year)` in this order, each exactly when its field is non-empty |
| Layout.EducationParts | Addition_Of_two_v2.py:815-823 | the definition of the clause list of the education line; Layout.EducationLine states it for every presence pattern |
| Layout.EducationFullLine | Addition_Of_two_v2.py:815-827 | with every clause present, the education line reads `degree, field, at institution, (year)` |
| Layout.EducationSkipsMissing | Addition_Of_two_v2.py:815-827 | with only degree and institution present, the line reads `degree, at institution` |
| Layout.EducationPartsNonEmpty | Addition_Of_two_v2.py:815-823 | whatever is missing, no clause of the education line is empty, so a missing field never leaves a doubled separator |
| Layout.EducationWithoutClauses | Addition_Of_two_v2.py:811-828 | an education record with no known clause still gets its heading and an empty paragraph |
| Convert.Installed | Addition_Of_two_v2.py:401-426 | the known locations that exist, and only those, become LibreOffice strategies |
| Convert.Apply | Addition_Of_two_v2.py:362-437 | a tool never touches the DOCX; the PDF stays as it was, or becomes the DOCX's content when the tool writes it |
| Convert.RunChain | Addition_Of_two_v2.py:358-441 | the chain tries a prefix of the strategies, all of them when nothing succeeds, and never changes the DOCX |
| Convert.RunChainFirstSuccess | Addition_Of_two_v2.py:358-441 | the chain succeeds exactly when some strategy would succeed after the ones before it; it stops at the first, having tried exactly the strategies up to it, and leaves the disk as they left it |
| Convert.RunChainFirstSuccessMiss | Addition_Of_two_v2.py:373-441 | when the first strategy fails, the chain's result is the rest of the chain's, shifted by one |
| Convert.DiskAfterShift | Addition_Of_two_v2.py:358-441 | running n+1 strategies is running the first, then n of the rest |
| Convert.LastIndex | Addition_Of_two_v2.py:360 | the last position holding one of two characters, or -1 when neither occurs |
| Convert.SplitExt | Addition_Of_two_v2.py:360 | `os.path.splitext` cuts the path into a root and an extension that concatenate back to it |
| Convert.SplitExtShape | Addition_Of_two_v2.py:360 | the extension is empty, or it starts with its only dot and the root keeps a character other than a dot after its last separator, so leading dots of a name never start an extension |
| Convert.SplitOffExt | Addition_Of_two_v2.py:360 | a stem whose last component is not all dots, followed by an extension, splits into exactly that stem and extension |
| Convert.PdfPath | Addition_Of_two_v2.py:360 | the PDF path ends in `.pdf`, and putting the cut-off extension back in place of `.pdf` gives the DOCX path |
| Convert.PdfPathOfDocx | Addition_Of_two_v2.py:360 | the PDF path is the DOCX path with its extension replaced by `.pdf` |
| Convert.LastIndexAppendOther | Addition_Of_two_v2.py:360 | appending characters other than the two searched for keeps the last index |
| Convert.LastIndexAppendAt | Addition_Of_two_v2.py:360 | appending a searched-for character and then only others moves the last index to it |
| Convert.ConvertDocx | Addition_Of_two_v2.py:358-441 | the conversion reports the PDF path exactly on success, tries a prefix of the strategies (all of them on failure), and never touches the DOCX |
| Convert.StrategyOrder | Addition_Of_two_v2.py:362-438 | Word automation first, LibreOffice on the search path second, docx2pdf last, and in between exactly the existing known locations |
| Convert.Strategies | Addition_Of_two_v2.py:362-438 | the definition of the strategy list: Word, LibreOffice on the search path, the installed known locations, docx2pdf; Convert.StrategyOrder states its content |
| Convert.Succeeded | Addition_Of_two_v2.py:362-438 | the definition of success per strategy: Word when it does not raise; LibreOffice with return code 0 and a PDF present afterwards; docx2pdf when a PDF is present afterwards; Convert.WordSuccessUnchecked and Convert.StalePdfCountsForLibreOffice show its consequences |
| Convert.InstalledAll | Addition_Of_two_v2.py:401-426 | with every location installed, each becomes a strategy, in list order |
| Convert.AllInstalledOrder | Addition_Of_two_v2.py:362-438 | with every known location installed, all five are tried in list order between the search path and docx2pdf |
| Convert.NoneInstalled | Addition_Of_two_v2.py:401-426 | with no location installed, no location strategy is added |
| Convert.NoneInstalledOrder | Addition_Of_two_v2.py:362-438 | with none installed, the chain is Word, LibreOffice on the search path, docx2pdf |
| Convert.WordSuccessUnchecked | Addition_Of_two_v2.py:362-372 | Word automation counts as a success when it does not raise, even if no PDF appears |
| Convert.StalePdfCountsForLibreOffice | Addition_Of_two_v2.py:380-391 | LibreOffice exiting with code 0 counts as a success because of a PDF left from an earlier run |
| Export.Generate | Addition_Of_two_v2.py:602-870 | a success for a format that writes the DOCX implies rendering succeeded, and "DOCX Only" never touches the PDF |
| Export.DocxOnlyOutcome | Addition_Of_two_v2.py:613-614 | "DOCX Only" reports True exactly when rendering succeeds, which saves the document; otherwise nothing changes |
| Export.BothOutcome | Addition_Of_two_v2.py:844-866 | "Both" reports True exactly when rendering succeeds; the DOCX stays, and the PDF is what the chain leaves |
| Export.BothIgnoresConversionFailure | Addition_Of_two_v2.py:853-866 | "Both" reports True even when every conversion strategy fails |
| Export.PdfOnlyOutcome | Addition_Of_two_v2.py:845-863 | "PDF Only" reports True exactly when conversion succeeds; then no DOCX is left, otherwise the converted DOCX stays |
| Export.ConverterSees | Addition_Of_two_v2.py:845-851 | the converter is given the freshly rendered DOCX, except for "PDF Only" with a DOCX already present |
| Export.ConverterInput | Addition_Of_two_v2.py:613-851 | the definition of the DOCX the converter reads: this run's render when the format wrote it or "PDF Only" found no DOCX, otherwise whatever DOCX is on disk; Export.ConverterSees and Export.StaleDocxConverted state its consequences |
| Export.StaleDocxConverted | Addition_Of_two_v2.py:846-851 | "PDF Only" with an old DOCX at the path reports True while the PDF holds the old content |
| Export.GenerateFresh | Addition_Of_two_v2.py:844-866 | in the corrected flow, success implies rendering succeeded, and "DOCX Only" never touches the PDF |
| Export.FreshPdfIsNewRender | Addition_Of_two_v2.py:844-866 | in the corrected flow, a PDF that changes holds this run's document |
| Export.ChainWritesOnlyDocx | Addition_Of_two_v2.py:358-441 | a PDF the chain changes is a copy of the DOCX it was given |
| Export.FreshAgreesWhenRendered | Addition_Of_two_v2.py:844-866 | where the program renders anyway, the corrected flow behaves the same |
| Export.DocxOnlyOnResume | Addition_Of_two_v2.py:602-870 | "DOCX Only" on a resume reports False exactly when the name, or some job's role or company, is missing |

## Left out

- The GUI: Tk widgets, the status bar, message boxes and button styling. Threading. Loading and clearing fields.
- JSON parsing: the resume arrives as the `Resume` datatype. A missing or falsy field is an empty value or `None`. Values of the wrong JSON type are not modelled, apart from the education record's dict check.
- `load_bold_skills` (reading the keyword file), because it is file I/O. The keywords arrive as a parameter.
- python-docx details: margins, line spacing, paragraph spacing, alignment, colours, heading borders, tab stops, list styles. The hyperlink relationship ids are left out as well.
- Only ASCII text: `\w`, `\s`, case folding and `str.upper` follow Python's behaviour on ASCII characters only.
- Highlight.ValidKeywords: the model requires every keyword to be non-empty. An empty keyword makes the pattern `\b\b`, whose zero-width matches are not modelled.
- Numbers in the font size: sizes are integers. `Pt` conversion is not modelled.
- `os.path.join`, `os.makedirs`, and exceptions raised by `doc.save` or `os.remove`. The DOCX path is a parameter. Only a rendering error (the missing key) makes the run fail before conversion.
- Convert.SplitExt models the Windows `ntpath` rules (both `\` and `/` separate components); the POSIX variant is not modelled.
- The external tools, the 60-second LibreOffice timeout and the `print` diagnostics. The oracle says what each strategy did.
- Convert.Apply: a tool can write the PDF only while the DOCX exists. This is a modelling assumption, not something the program checks.
- Convert.Installed: the contract states membership. The list order of the strategies is proved separately, for all or none installed (Convert.AllInstalledOrder, Convert.NoneInstalledOrder).
- Filename.CollapseSpaces: the contract gives only the length and the absence of whitespace. The exact result is stated by Filename.CollapseIsUnderscored, and Filename.CollapseRun and Filename.CollapseIdentity give its two cases.
- Filename.KeepAllowed: the contract gives only the kept characters and the length. Order is proved by Filename.KeepAllowedAppend, and counts by Filename.KeepAllowedCounts.
- Contacts.StructuredParts: the contract gives only the bound. The order is stated by Contacts.StructuredOrder and Contacts.ContactPartsShape.
- Export.Generate: the nested "DOCX Only" call's own True or False is ignored, as in the program; only its effect on the disk is kept.

## Findings

| source | as written | input that shows it | evidently intended | confidence | as-written member | corrected member |
|---|---|---|---|---|---|---|
| Addition_Of_two_v2.py:846-851 | "PDF Only" renders a DOCX only when none exists at the path, then converts whatever DOCX is there | "PDF Only" when a DOCX from an earlier run with different content is at the path: the old DOCX is converted, True is reported, and the old file is deleted | the PDF holds the document rendered in this run | not executed | Export.StaleDocxConverted (of Export.Generate) | Export.GenerateFresh, with Export.FreshPdfIsNewRender |

=== FILE: contacts.dfy ===
/**
 * The contact line under the resume header: an ordered list of (label, url)
 * parts gathered from the structured `contact` record and from the legacy
 * top-level fields, rendered as hyperlinks separated by " | ".
 */
module Contacts {

  /**
   * The four contact fields. The empty string stands for a field that is
   * missing or falsy, which the generator treats alike.
   */
  datatype Contact = Contact(portfolio: string, linkedin: string, email: string, phone: string)

  /** One hyperlink of the contact line: the text shown and the link target. */
  datatype Part = Part(display: string, url: string)

  const PortfolioLabel: string := "Portfolio"
  const LinkedInLabel: string := "LinkedIn"
  const MailScheme: string := "mailto:"
  const PhoneScheme: string := "tel:"
  const Separator: string := " | "

  function PortfolioPart(url: string): Part { Part(PortfolioLabel, url) }
  function LinkedInPart(url: string): Part { Part(LinkedInLabel, url) }
  function EmailPart(email: string): Part { Part(email, MailScheme + email) }
  function PhonePart(phone: string): Part { Part(phone, PhoneScheme + phone) }

  /** The part for a field is added when the field is present. */
  function When(present: string, p: Part): seq<Part> {
    if present != "" then [p] else []
  }

  /** Some part already carries this label. */
  predicate HasLabel(parts: seq<Part>, shown: string) {
    exists i :: 0 <= i < |parts| && parts[i].display == shown
  }

  /** The parts of the structured `contact` record: portfolio, LinkedIn, email, phone. */
  function StructuredParts(c: Contact): (r: seq<Part>)
    ensures |r| <= 4
  {
    When(c.portfolio, PortfolioPart(c.portfolio))
    + When(c.linkedin, LinkedInPart(c.linkedin))
    + When(c.email, EmailPart(c.email))
    + When(c.phone, PhonePart(c.phone))
  }

  /** Append the part for a legacy email or phone only when no part has its label yet. */
  function AddUnlessLabelled(parts: seq<Part>, value: string, p: Part): (r: seq<Part>)
    requires p.display == value
    ensures value != "" ==> HasLabel(r, value)
    ensures r == parts || r == parts + [p]
    ensures r == parts + [p] <==> value != "" && !HasLabel(parts, value)
  {
    if value != "" && !HasLabel(parts, value) then
      var r := parts + [p];
      assert r[|parts|].display == value;
      r
    else parts
  }

  /**
   * The contact parts: the structured record's parts, then the legacy
   * portfolio and LinkedIn (always, when present), then the legacy email and
   * phone when no part has the same label.
   */
  function ContactParts(structured: Contact, legacy: Contact): (r: seq<Part>)
  {
    var base := StructuredParts(structured) + LegacyLinks(legacy);
    var withEmail := AddUnlessLabelled(base, legacy.email, EmailPart(legacy.email));
    AddUnlessLabelled(withEmail, legacy.phone, PhonePart(legacy.phone))
  }

  /** The legacy portfolio and LinkedIn parts, each when present; these are never deduplicated. */
  function LegacyLinks(legacy: Contact): seq<Part> {
    When(legacy.portfolio, PortfolioPart(legacy.portfolio)) + When(legacy.linkedin, LinkedInPart(legacy.linkedin))
  }

  /** A text shows in two lists placed one after the other exactly when it shows in one of them. */
  lemma HasLabelAppend(a: seq<Part>, b: seq<Part>, shown: string)
    ensures HasLabel(a + b, shown) <==> HasLabel(a, shown) || HasLabel(b, shown)
  {
    if HasLabel(a + b, shown) {
      var i :| 0 <= i < |a + b| && (a + b)[i].display == shown;
      if i >= |a| { assert b[i - |a|].display == shown; }
    }
    if HasLabel(b, shown) {
      var i :| 0 <= i < |b| && b[i].display == shown;
      assert (a + b)[|a| + i].display == shown;
    }
    if HasLabel(a, shown) {
      var i :| 0 <= i < |a| && a[i].display == shown;
      assert (a + b)[i].display == shown;
    }
  }

  /** A legacy portfolio or LinkedIn part shows this text: the text is that fixed label. */
  lemma LegacyLinksLabel(legacy: Contact, shown: string)
    ensures HasLabel(LegacyLinks(legacy), shown) <==>
      (legacy.portfolio != "" && shown == PortfolioLabel) || (legacy.linkedin != "" && shown == LinkedInLabel)
  {
    var lp := When(legacy.portfolio, PortfolioPart(legacy.portfolio));
    var ll := When(legacy.linkedin, LinkedInPart(legacy.linkedin));
    HasLabelAppend(lp, ll, shown);
    assert HasLabel(lp, shown) <==> legacy.portfolio != "" && shown == PortfolioLabel by {
      if legacy.portfolio != "" { assert lp[0].display == PortfolioLabel; }
    }
    assert HasLabel(ll, shown) <==> legacy.linkedin != "" && shown == LinkedInLabel by {
      if legacy.linkedin != "" { assert ll[0].display == LinkedInLabel; }
    }
  }

  /**
   * The legacy email is added when it is present, no structured part shows
   * it, and it is not the label of a legacy portfolio or LinkedIn link.
   */
  predicate EmailAdded(structured: Contact, legacy: Contact) {
    && legacy.email != ""
    && !HasLabel(StructuredParts(structured), legacy.email)
    && !(legacy.portfolio != "" && legacy.email == PortfolioLabel)
    && !(legacy.linkedin != "" && legacy.email == LinkedInLabel)
  }

  /** The legacy phone likewise, and also not when it equals an email that was just added. */
  predicate PhoneAdded(structured: Contact, legacy: Contact) {
    && legacy.phone != ""
    && !HasLabel(StructuredParts(structured), legacy.phone)
    && !(legacy.portfolio != "" && legacy.phone == PortfolioLabel)
    && !(legacy.linkedin != "" && legacy.phone == LinkedInLabel)
    && !(EmailAdded(structured, legacy) && legacy.phone == legacy.email)
  }

  /**
   * The whole contact list: the structured parts, then the legacy portfolio,
   * LinkedIn, email and phone in that order, the first two whenever present
   * and the last two under the deduplication conditions above.
   */
  lemma ContactPartsLayout(structured: Contact, legacy: Contact)
    ensures ContactParts(structured, legacy) ==
      StructuredParts(structured)
      + When(legacy.portfolio, PortfolioPart(legacy.portfolio))
      + When(legacy.linkedin, LinkedInPart(legacy.linkedin))
      + (if EmailAdded(structured, legacy) then [EmailPart(legacy.email)] else [])
      + (if PhoneAdded(structured, legacy) then [PhonePart(legacy.phone)] else [])
  {
    var s := StructuredParts(structured);
    var links := LegacyLinks(legacy);
    var base := s + links;
    var e := if EmailAdded(structured, legacy) then [EmailPart(legacy.email)] else [];
    HasLabelAppend(s, links, legacy.email);
    LegacyLinksLabel(legacy, legacy.email);
    var withEmail := AddUnlessLabelled(base, legacy.email, EmailPart(legacy.email));
    assert withEmail == base + e;
    HasLabelAppend(s, links, legacy.phone);
    LegacyLinksLabel(legacy, legacy.phone);
    HasLabelAppend(base, e, legacy.phone);
    assert HasLabel(e, legacy.phone) <==> EmailAdded(structured, legacy) && legacy.phone == legacy.email by {
      if EmailAdded(structured, legacy) { assert e[0].display == legacy.email; }
    }
    assert s + links == s + When(legacy.portfolio, PortfolioPart(legacy.portfolio))
      + When(legacy.linkedin, LinkedInPart(legacy.linkedin));
  }

  /** A part is one of the four kinds, each with its label and target. */
  predicate WellFormedPart(p: Part) {
    || (p.display == PortfolioLabel && p.url != "")
    || (p.display == LinkedInLabel && p.url != "")
    || (p.display != "" && p.url == MailScheme + p.display)
    || (p.display != "" && p.url == PhoneScheme + p.display)
  }

  predicate AllWellFormed(parts: seq<Part>) {
    forall i :: 0 <= i < |parts| ==> WellFormedPart(parts[i])
  }

  lemma WellFormedAppend(a: seq<Part>, b: seq<Part>)
    requires AllWellFormed(a) && AllWellFormed(b)
    ensures AllWellFormed(a + b)
  {
    forall i | 0 <= i < |a + b| ensures WellFormedPart((a + b)[i]) {
      if i >= |a| { assert (a + b)[i] == b[i - |a|]; }
    }
  }

  lemma StructuredWellFormed(c: Contact)
    ensures AllWellFormed(StructuredParts(c))
  {
    var p := When(c.portfolio, PortfolioPart(c.portfolio));
    var l := When(c.linkedin, LinkedInPart(c.linkedin));
    var e := When(c.email, EmailPart(c.email));
    var f := When(c.phone, PhonePart(c.phone));
    WellFormedAppend(p, l);
    WellFormedAppend(p + l, e);
    WellFormedAppend(p + l + e, f);
  }

  /**
   * Shape of the contact parts: the structured parts come first in their
   * fixed order, every part is well formed, and there are at most eight.
   */
  lemma ContactPartsShape(structured: Contact, legacy: Contact)
    ensures var r := ContactParts(structured, legacy);
      && |StructuredParts(structured)| <= |r| <= 8
      && r[..|StructuredParts(structured)|] == StructuredParts(structured)
      && AllWellFormed(r)
  {
    var s := StructuredParts(structured);
    var lp := When(legacy.portfolio, PortfolioPart(legacy.portfolio));
    var ll := When(legacy.linkedin, LinkedInPart(legacy.linkedin));
    var base := s + lp + ll;
    assert base == s + LegacyLinks(legacy);
    var withEmail := AddUnlessLabelled(base, legacy.email, EmailPart(legacy.email));
    var r := AddUnlessLabelled(withEmail, legacy.phone, PhonePart(legacy.phone));
    assert r == ContactParts(structured, legacy);
    StructuredWellFormed(structured);
    WellFormedAppend(s, lp);
    WellFormedAppend(s + lp, ll);
    WellFormedAppend(base, When(legacy.email, EmailPart(legacy.email)));
    assert AllWellFormed(withEmail) by {
      if withEmail != base {
        assert withEmail == base + When(legacy.email, EmailPart(legacy.email));
      }
    }
    WellFormedAppend(withEmail, When(legacy.phone, PhonePart(legacy.phone)));
    assert AllWellFormed(r) by {
      if r != withEmail {
        assert r == withEmail + When(legacy.phone, PhonePart(legacy.phone));
      }
    }
    assert base[..|s|] == s;
    assert withEmail[..|s|] == s;
    assert r[..|s|] == s;
  }

  /** The structured parts in their fixed order, one per present field. */
  lemma StructuredOrder(c: Contact)
    requires c.portfolio != "" && c.linkedin != "" && c.email != "" && c.phone != ""
    ensures StructuredParts(c) ==
      [PortfolioPart(c.portfolio), LinkedInPart(c.linkedin), EmailPart(c.email), PhonePart(c.phone)]
  {
  }

  /**
   * A legacy email is always represented afterwards by some part with its
   * label; when an earlier part already shows it, no email part is added and
   * only the legacy phone may follow.
   */
  lemma LegacyEmailDeduplicated(structured: Contact, legacy: Contact)
    requires legacy.email != ""
    ensures var base := StructuredParts(structured) + LegacyLinks(legacy);
      && HasLabel(ContactParts(structured, legacy), legacy.email)
      && (HasLabel(base, legacy.email) ==>
            ContactParts(structured, legacy) == AddUnlessLabelled(base, legacy.phone, PhonePart(legacy.phone)))
  {
    var base := StructuredParts(structured) + LegacyLinks(legacy);
    var withEmail := AddUnlessLabelled(base, legacy.email, EmailPart(legacy.email));
    var r := ContactParts(structured, legacy);
    var i :| 0 <= i < |withEmail| && withEmail[i].display == legacy.email;
    assert r[i] == withEmail[i];
  }

  /** When the structured and legacy emails agree, the email is linked once, not twice. */
  lemma SameEmailLinkedOnce(email: string, legacy: Contact)
    requires email != "" && legacy.email == email
    requires legacy.portfolio == "" && legacy.linkedin == "" && legacy.phone == ""
    ensures ContactParts(Contact("", "", email, ""), legacy) == [EmailPart(email)]
  {
    var s := StructuredParts(Contact("", "", email, ""));
    assert s == [EmailPart(email)];
    var base := s + When(legacy.portfolio, PortfolioPart(legacy.portfolio))
                  + When(legacy.linkedin, LinkedInPart(legacy.linkedin));
    assert base == s;
    assert HasLabel(s, email) by {
      assert s[0].display == email;
    }
  }

  /**
   * Legacy portfolio and LinkedIn entries are not deduplicated: a resume
   * carrying both forms gets the same link twice.
   */
  lemma LegacyPortfolioDuplicated(url: string)
    requires url != ""
    ensures ContactParts(Contact(url, "", "", ""), Contact(url, "", "", "")) ==
      [PortfolioPart(url), PortfolioPart(url)]
  {
  }

  // ---------------------------------------------------------------------------
  // The contact paragraph: hyperlinks separated by " | "
  // ---------------------------------------------------------------------------

  /** A piece of the contact paragraph; both kinds carry the chosen font name. */
  datatype Inline =
    | Hyperlink(text: string, url: string, font: string)
    | Plain(text: string, font: string)

  function LinkOf(p: Part, font: string): Inline {
    Hyperlink(p.display, p.url, font)
  }

  /**
   * `add_hyperlinked_paragraph`: the inlines for the parts, a separator after
   * every part except the last. Even positions hold the links, odd positions
   * the separators.
   */
  function LinkLine(parts: seq<Part>, font: string): (r: seq<Inline>)
    ensures |parts| == 0 ==> r == []
    ensures |parts| > 0 ==> |r| == 2 * |parts| - 1
    ensures forall i :: 0 <= i < |r| && i % 2 == 0 ==> r[i] == LinkOf(parts[i / 2], font)
    ensures forall i :: 0 <= i < |r| && i % 2 == 1 ==> r[i] == Plain(Separator, font)
  {
    if |parts| == 0 then []
    else if |parts| == 1 then [LinkOf(parts[0], font)]
    else
      var rest := LinkLine(parts[1..], font);
      var r := [LinkOf(parts[0], font), Plain(Separator, font)] + rest;
      assert forall i :: 2 <= i < |r| ==> r[i] == rest[i - 2];
      r
  }

  /** The loop of `add_hyperlinked_paragraph`, index by index. */
  method BuildLinkLine(parts: seq<Part>, font: string) returns (line: seq<Inline>)
    ensures line == LinkLine(parts, font)
  {
    line := [];
    var idx := 0;
    while idx < |parts|
      invariant 0 <= idx <= |parts|
      invariant |line| == (if idx == 0 then 0 else 2 * idx - 1) + (if 0 < idx < |parts| then 1 else 0)
      invariant forall i :: 0 <= i < |line| && i % 2 == 0 ==> line[i] == LinkOf(parts[i / 2], font)
      invariant forall i :: 0 <= i < |line| && i % 2 == 1 ==> line[i] == Plain(Separator, font)
    {
      line := line + [LinkOf(parts[idx], font)];
      if idx != |parts| - 1 {
        line := line + [Plain(Separator, font)];
      }
      idx := idx + 1;
    }
    LinkLineUnique(parts, font, line);
  }

  /** The characterisation in LinkLine's contract determines the line. */
  lemma LinkLineUnique(parts: seq<Part>, font: string, line: seq<Inline>)
    requires |line| == (if |parts| == 0 then 0 else 2 * |parts| - 1)
    requires forall i :: 0 <= i < |line| && i % 2 == 0 ==> line[i] == LinkOf(parts[i / 2], font)
    requires forall i :: 0 <= i < |line| && i % 2 == 1 ==> line[i] == Plain(Separator, font)
    ensures line == LinkLine(parts, font)
  {
    var r := LinkLine(parts, font);
    assert |r| == |line|;
    forall i | 0 <= i < |line| ensures line[i] == r[i] {
      if i % 2 == 0 {
        assert line[i] == LinkOf(parts[i / 2], font);
      } else {
        assert line[i] == Plain(Separator, font);
      }
    }
  }

  /** The parts a contact paragraph links to, read back in order. */
  function LinksOf(line: seq<Inline>): seq<Part> {
    if |line| == 0 then []
    else if line[0].Hyperlink? then [Part(line[0].text, line[0].url)] + LinksOf(line[1..])
    else LinksOf(line[1..])
  }

  function CountPlain(line: seq<Inline>): nat {
    if |line| == 0 then 0 else (if line[0].Plain? then 1 else 0) + CountPlain(line[1..])
  }

  /** Round trip: the paragraph links to exactly the parts, in order. */
  lemma {:induction false} LinkLineRoundTrip(parts: seq<Part>, font: string)
    ensures LinksOf(LinkLine(parts, font)) == parts
    decreases |parts|
  {
    if |parts| > 1 {
      LinkLineRoundTrip(parts[1..], font);
      var line := LinkLine(parts, font);
      assert line[1..][1..] == LinkLine(parts[1..], font);
      assert parts == [parts[0]] + parts[1..];
    } else if |parts| == 1 {
      assert LinkLine(parts, font)[1..] == [];
    }
  }

  /** A line of n parts has exactly n - 1 separators. */
  lemma {:induction false} LinkLineSeparators(parts: seq<Part>, font: string)
    requires |parts| > 0
    ensures CountPlain(LinkLine(parts, font)) == |parts| - 1
    decreases |parts|
  {
    if |parts| > 1 {
      LinkLineSeparators(parts[1..], font);
      var line := LinkLine(parts, font);
      assert line[1..][1..] == LinkLine(parts[1..], font);
    } else {
      assert LinkLine(parts, font)[1..] == [];
    }
  }
}

=== FILE: convert.dfy ===
/**
 * DOCX to PDF conversion as a chain of strategies tried in a fixed order:
 * Word automation, LibreOffice on the search path, LibreOffice at each known
 * install location that exists, and the docx2pdf package. The first strategy
 * that succeeds ends the chain; every failure is swallowed.
 *
 * Running a tool is not modelled: an oracle says, for each strategy, whether
 * the call raised, the process's return code and whether the tool wrote the
 * PDF. The file system is reduced to the two files involved.
 */
module Convert {
  import opened Wrappers

  /** The conversion strategies. */
  datatype Strategy =
    | WordAutomation
    | LibreOffice(command: string)
    | Docx2Pdf

  /** The command looked up on the search path. */
  const PathCommand: string := "soffice"

  /** The install locations tried after the search path, in this order. */
  const KnownPaths: seq<string> := [
    "C:\\Program Files\\LibreOffice\\program\\soffice.exe",
    "C:\\Program Files (x86)\\LibreOffice\\program\\soffice.exe",
    "/usr/bin/libreoffice",
    "/usr/bin/soffice",
    "/Applications/LibreOffice.app/Contents/MacOS/soffice"
  ]

  /** What running one strategy did: raised, returned with a code, wrote the PDF. */
  datatype Attempt = Attempt(raised: bool, returnCode: int, writesPdf: bool)

  /** The DOCX and the PDF at the paths derived from the file name; None when absent. */
  datatype Disk<D> = Disk(docx: Option<D>, pdf: Option<D>)

  /** The known install locations that exist, in list order. */
  function Installed(paths: seq<string>, installed: set<string>): (r: seq<Strategy>)
    ensures |r| <= |paths|
    ensures forall i :: 0 <= i < |r| ==> r[i].LibreOffice? && r[i].command in paths && r[i].command in installed
    ensures forall p :: p in paths && p in installed ==> LibreOffice(p) in r
  {
    if |paths| == 0 then []
    else
      var rest := Installed(paths[1..], installed);
      assert forall p :: p in paths[1..] ==> p in paths;
      if paths[0] in installed then [LibreOffice(paths[0])] + rest else rest
  }

  /** The strategies in the order they are tried. */
  function Strategies(installed: set<string>): seq<Strategy> {
    [WordAutomation, LibreOffice(PathCommand)] + Installed(KnownPaths, installed) + [Docx2Pdf]
  }

  /** The effect of an attempt on the disk: a tool that writes turns the DOCX into the PDF. */
  function Apply<D>(disk: Disk<D>, a: Attempt): (r: Disk<D>)
    ensures r.docx == disk.docx
    ensures r.pdf == disk.pdf || (a.writesPdf && r.pdf == disk.docx && disk.docx.Some?)
  {
    if a.writesPdf && disk.docx.Some? then disk.(pdf := disk.docx) else disk
  }

  /**
   * When a strategy counts as a success: Word automation when it does not
   * raise; LibreOffice when it exits with code 0 and a PDF exists afterwards;
   * docx2pdf when it does not raise and a PDF exists afterwards.
   */
  predicate Succeeded<D>(s: Strategy, a: Attempt, after: Disk<D>) {
    match s
    case WordAutomation => !a.raised
    case LibreOffice(_) => !a.raised && a.returnCode == 0 && after.pdf.Some?
    case Docx2Pdf => !a.raised && after.pdf.Some?
  }

  /** The outcome of a chain: success, the strategies run in order, and the disk afterwards. */
  datatype ChainResult<D> = ChainResult(ok: bool, tried: seq<Strategy>, disk: Disk<D>)

  /** Try the strategies in order until one succeeds. */
  function RunChain<D>(ss: seq<Strategy>, oracle: Strategy -> Attempt, disk: Disk<D>): (r: ChainResult<D>)
    ensures |r.tried| <= |ss| && r.tried == ss[..|r.tried|]
    ensures !r.ok ==> r.tried == ss
    ensures r.disk.docx == disk.docx
    decreases |ss|
  {
    if |ss| == 0 then ChainResult(false, [], disk)
    else
      var after := Apply(disk, oracle(ss[0]));
      if Succeeded(ss[0], oracle(ss[0]), after) then ChainResult(true, [ss[0]], after)
      else
        var rest := RunChain(ss[1..], oracle, after);
        ChainResult(rest.ok, [ss[0]] + rest.tried, rest.disk)
  }

  /** The disk after running the first n strategies of ss, one after another. */
  function DiskAfter<D>(ss: seq<Strategy>, oracle: Strategy -> Attempt, disk: Disk<D>, n: nat): Disk<D>
    requires n <= |ss|
    decreases n
  {
    if n == 0 then disk else Apply(DiskAfter(ss, oracle, disk, n - 1), oracle(ss[n - 1]))
  }

  /** Strategy i of ss succeeds when run after the strategies before it. */
  predicate SucceedsAt<D>(ss: seq<Strategy>, oracle: Strategy -> Attempt, disk: Disk<D>, i: nat)
    requires i < |ss|
  {
    Succeeded(ss[i], oracle(ss[i]), DiskAfter(ss, oracle, disk, i + 1))
  }

  lemma {:induction false} DiskAfterShift<D>(ss: seq<Strategy>, oracle: Strategy -> Attempt, disk: Disk<D>, n: nat)
    requires 0 < |ss| && n < |ss|
    ensures DiskAfter(ss, oracle, disk, n + 1) == DiskAfter(ss[1..], oracle, Apply(disk, oracle(ss[0])), n)
    decreases n
  {
    if n > 0 {
      DiskAfterShift(ss, oracle, disk, n - 1);
    }
  }

  /**
   * First-success characterisation: the chain succeeds exactly when some
   * strategy succeeds; it then stops at the first one, every earlier one
   * having failed, and leaves the disk as the strategies up to it left it.
   * Otherwise it has tried every strategy.
   */
  lemma {:induction false} RunChainFirstSuccess<D>(ss: seq<Strategy>, oracle: Strategy -> Attempt, disk: Disk<D>)
    ensures ChainFirstSuccess(ss, oracle, disk)
    decreases |ss|, 1
  {
    if |ss| > 0 {
      var a := oracle(ss[0]);
      var after := Apply(disk, a);
      assert DiskAfter(ss, oracle, disk, 1) == after;
      if !Succeeded(ss[0], a, after) {
        RunChainFirstSuccessMiss(ss, oracle, disk);
      } else {
        assert SucceedsAt(ss, oracle, disk, 0);
      }
    }
  }

  /** The chain's result: ok exactly when some strategy succeeds, and then it stopped at the first. */
  ghost predicate ChainFirstSuccess<D>(ss: seq<Strategy>, oracle: Strategy -> Attempt, disk: Disk<D>) {
    var r := RunChain(ss, oracle, disk);
    && (r.ok <==> exists i :: 0 <= i < |ss| && SucceedsAt(ss, oracle, disk, i))
    && (r.ok ==> |r.tried| > 0
                 && SucceedsAt(ss, oracle, disk, |r.tried| - 1)
                 && (forall j :: 0 <= j < |r.tried| - 1 ==> !SucceedsAt(ss, oracle, disk, j))
                 && r.disk == DiskAfter(ss, oracle, disk, |r.tried|))
    && (!r.ok ==> r.disk == DiskAfter(ss, oracle, disk, |ss|))
  }

  /** The step where the first strategy fails: the chain's result is the tail's, shifted by one. */
  lemma {:induction false} RunChainFirstSuccessMiss<D>(ss: seq<Strategy>, oracle: Strategy -> Attempt, disk: Disk<D>)
    requires |ss| > 0 && !Succeeded(ss[0], oracle(ss[0]), Apply(disk, oracle(ss[0])))
    ensures ChainFirstSuccess(ss, oracle, disk)
    decreases |ss|, 0
  {
    var after := Apply(disk, oracle(ss[0]));
    var tail := ss[1..];
    RunChainFirstSuccess(tail, oracle, after);
    var rest := RunChain(tail, oracle, after);
    var r := RunChain(ss, oracle, disk);
    assert r.ok == rest.ok && r.disk == rest.disk && |r.tried| == 1 + |rest.tried|;
    ShiftAll(ss, oracle, disk);
    if rest.ok {
      MissThenSuccess(ss, oracle, disk, |rest.tried| - 1);
    } else {
      MissThenFailure(ss, oracle, disk);
    }
  }

  /** Success and the disk, counted from the second strategy on. */
  lemma ShiftAll<D>(ss: seq<Strategy>, oracle: Strategy -> Attempt, disk: Disk<D>)
    requires |ss| > 0
    ensures var after := Apply(disk, oracle(ss[0]));
      && (forall j :: 0 <= j < |ss| - 1 ==>
            SucceedsAt(ss, oracle, disk, j + 1) == SucceedsAt(ss[1..], oracle, after, j))
      && (forall j :: 0 <= j < |ss| ==> DiskAfter(ss, oracle, disk, j + 1) == DiskAfter(ss[1..], oracle, after, j))
  {
    var after := Apply(disk, oracle(ss[0]));
    forall j | 0 <= j < |ss|
      ensures DiskAfter(ss, oracle, disk, j + 1) == DiskAfter(ss[1..], oracle, after, j)
    {
      DiskAfterShift(ss, oracle, disk, j);
    }
    forall j | 0 <= j < |ss| - 1
      ensures SucceedsAt(ss, oracle, disk, j + 1) == SucceedsAt(ss[1..], oracle, after, j)
    {
      DiskAfterShift(ss, oracle, disk, j + 1);
    }
  }

  /** The first strategy fails and the k-th of the rest is the first to succeed. */
  lemma MissThenSuccess<D>(ss: seq<Strategy>, oracle: Strategy -> Attempt, disk: Disk<D>, k: nat)
    requires |ss| > 0 && k < |ss| - 1
    requires !SucceedsAt(ss, oracle, disk, 0)
    requires var after := Apply(disk, oracle(ss[0]));
      && (forall j :: 0 <= j < |ss| - 1 ==>
            SucceedsAt(ss, oracle, disk, j + 1) == SucceedsAt(ss[1..], oracle, after, j))
      && SucceedsAt(ss[1..], oracle, after, k)
      && (forall j :: 0 <= j < k ==> !SucceedsAt(ss[1..], oracle, after, j))
    ensures SucceedsAt(ss, oracle, disk, k + 1)
    ensures forall j :: 0 <= j < k + 1 ==> !SucceedsAt(ss, oracle, disk, j)
  {
    var after := Apply(disk, oracle(ss[0]));
    forall j | 0 <= j < k + 1 ensures !SucceedsAt(ss, oracle, disk, j) {
      if j > 0 {
        assert !SucceedsAt(ss[1..], oracle, after, j - 1);
      }
    }
  }

  /** The first strategy fails and so does every one of the rest. */
  lemma MissThenFailure<D>(ss: seq<Strategy>, oracle: Strategy -> Attempt, disk: Disk<D>)
    requires |ss| > 0
    requires !SucceedsAt(ss, oracle, disk, 0)
    requires var after := Apply(disk, oracle(ss[0]));
      && (forall j :: 0 <= j < |ss| - 1 ==>
            SucceedsAt(ss, oracle, disk, j + 1) == SucceedsAt(ss[1..], oracle, after, j))
      && (forall j :: 0 <= j < |ss| - 1 ==> !SucceedsAt(ss[1..], oracle, after, j))
    ensures forall j :: 0 <= j < |ss| ==> !SucceedsAt(ss, oracle, disk, j)
  {
    var after := Apply(disk, oracle(ss[0]));
    forall j | 0 <= j < |ss| ensures !SucceedsAt(ss, oracle, disk, j) {
      if j > 0 {
        assert !SucceedsAt(ss[1..], oracle, after, j - 1);
      }
    }
  }

  // ---------------------------------------------------------------------------
  // The PDF path: os.path.splitext(docx_path)[0] + ".pdf"
  // ---------------------------------------------------------------------------

  /** The last index holding c1 or c2, or -1. */
  function LastIndex(p: string, c1: char, c2: char): (r: int)
    ensures -1 <= r < |p|
    ensures r >= 0 ==> p[r] == c1 || p[r] == c2
    ensures forall i :: r < i < |p| ==> p[i] != c1 && p[i] != c2
  {
    if |p| == 0 then -1
    else if p[|p| - 1] == c1 || p[|p| - 1] == c2 then |p| - 1
    else LastIndex(p[..|p| - 1], c1, c2)
  }

  /**
   * Windows `os.path.splitext`: the extension starts at the last dot after
   * the last separator ('\\' or '/'), unless only dots precede it in the last
   * component.
   */
  function SplitExt(p: string): (r: (string, string))
    ensures r.0 + r.1 == p
  {
    var sep := LastIndex(p, '\\', '/');
    var dot := LastIndex(p, '.', '.');
    if dot > sep && exists i :: sep < i < dot && p[i] != '.' then (p[..dot], p[dot..])
    else (p, "")
  }

  /** The PDF written next to the DOCX. */
  function PdfPath(docxPath: string): (r: string)
    ensures |r| >= 4 && r[|r| - 4..] == ".pdf"
    ensures r[..|r| - 4] + SplitExt(docxPath).1 == docxPath
  {
    SplitExt(docxPath).0 + ".pdf"
  }

  /** An extension as SplitExt cuts it off: a dot, then no dot and no separator. */
  predicate IsExtension(ext: string) {
    && |ext| > 0 && ext[0] == '.'
    && forall i :: 1 <= i < |ext| ==> ext[i] != '.' && ext[i] != '\\' && ext[i] != '/'
  }

  /**
   * What SplitExt returns: either no extension, or a single-dot extension
   * whose root still has a character other than a dot after its last
   * separator, so leading dots of a name ("a/.b") never start an extension.
   */
  lemma SplitExtShape(p: string)
    ensures SplitExt(p).1 == "" ||
      (IsExtension(SplitExt(p).1) &&
       exists i :: LastIndex(SplitExt(p).0, '\\', '/') < i < |SplitExt(p).0| && SplitExt(p).0[i] != '.')
  {
    var sep := LastIndex(p, '\\', '/');
    var dot := LastIndex(p, '.', '.');
    if dot > sep && exists i :: sep < i < dot && p[i] != '.' {
      var a, b := p[..dot], p[dot..];
      assert a + b == p;
      assert SplitExt(p) == (a, b);
      assert forall k :: 0 <= k < |b| ==> b[k] == p[dot + k];
      assert IsExtension(b);
      LastIndexAppendOther(a, b, '\\', '/');
      var i :| sep < i < dot && p[i] != '.';
      assert a[i] == p[i];
    }
  }

  /**
   * A path "stem" + ext, whose last component has something other than dots
   * before the extension, splits into exactly stem and ext.
   */
  lemma SplitOffExt(stem: string, ext: string)
    requires IsExtension(ext)
    requires exists i :: LastIndex(stem, '\\', '/') < i < |stem| && stem[i] != '.'
    ensures SplitExt(stem + ext) == (stem, ext)
  {
    var p := stem + ext;
    ExtensionHasNoSeparator(ext);
    LastIndexAppendOther(stem, ext, '\\', '/');
    LastIndexAppendAt(stem, ext, '.', '.');
    var sep := LastIndex(p, '\\', '/');
    var dot := LastIndex(p, '.', '.');
    var i :| LastIndex(stem, '\\', '/') < i < |stem| && stem[i] != '.';
    assert sep < i < dot && p[i] != '.';
    assert p[..dot] == stem;
    assert p[dot..] == ext;
  }

  lemma ExtensionHasNoSeparator(ext: string)
    requires IsExtension(ext)
    ensures forall i :: 0 <= i < |ext| ==> ext[i] != '\\' && ext[i] != '/'
  {
  }

  /** So the PDF is written next to the DOCX under the same stem (ext is ".docx" in the program). */
  lemma PdfPathOfDocx(stem: string, ext: string)
    requires IsExtension(ext)
    requires exists i :: LastIndex(stem, '\\', '/') < i < |stem| && stem[i] != '.'
    ensures PdfPath(stem + ext) == stem + ".pdf"
  {
    SplitOffExt(stem, ext);
  }

  /** Appending characters other than c1 and c2 keeps the last index. */
  lemma {:induction false} LastIndexAppendOther(a: string, b: string, c1: char, c2: char)
    requires forall i :: 0 <= i < |b| ==> b[i] != c1 && b[i] != c2
    ensures LastIndex(a + b, c1, c2) == LastIndex(a, c1, c2)
    decreases |b|
  {
    if |b| > 0 {
      LastIndexAppendOther(a, b[..|b| - 1], c1, c2);
      assert (a + b)[..|a + b| - 1] == a + b[..|b| - 1];
    } else {
      assert a + b == a;
    }
  }

  /** Appending c1 or c2 and then only other characters moves the last index to the appended one. */
  lemma LastIndexAppendAt(a: string, b: string, c1: char, c2: char)
    requires |b| > 0 && (b[0] == c1 || b[0] == c2)
    requires forall i :: 1 <= i < |b| ==> b[i] != c1 && b[i] != c2
    ensures LastIndex(a + b, c1, c2) == |a|
  {
    var a' := a + [b[0]];
    assert a'[..|a|] == a;
    assert LastIndex(a', c1, c2) == |a|;
    LastIndexAppendOther(a', b[1..], c1, c2);
    assert a' + b[1..] == a + b;
  }

  // ---------------------------------------------------------------------------
  // convert_docx_to_pdf_multiple_methods
  // ---------------------------------------------------------------------------

  datatype Conversion<D> = Conversion(ok: bool, pdfPath: Option<string>, tried: seq<Strategy>, disk: Disk<D>)

  /** Run the chain; on success report the PDF path, otherwise no path. */
  function ConvertDocx<D>(docxPath: string, installed: set<string>, oracle: Strategy -> Attempt, disk: Disk<D>): (r: Conversion<D>)
    ensures r.ok <==> r.pdfPath.Some?
    ensures r.ok ==> r.pdfPath == Some(PdfPath(docxPath))
    ensures r.disk.docx == disk.docx
    ensures !r.ok ==> r.tried == Strategies(installed)
    ensures |r.tried| <= |Strategies(installed)| && r.tried == Strategies(installed)[..|r.tried|]
  {
    var c := RunChain(Strategies(installed), oracle, disk);
    Conversion(c.ok, if c.ok then Some(PdfPath(docxPath)) else None, c.tried, c.disk)
  }

  /** The chain starts with Word automation, then LibreOffice on the search path, and ends with docx2pdf. */
  lemma StrategyOrder(installed: set<string>)
    ensures var ss := Strategies(installed);
      && |ss| >= 3
      && ss[0] == WordAutomation && ss[1] == LibreOffice(PathCommand) && ss[|ss| - 1] == Docx2Pdf
      && (forall i :: 2 <= i < |ss| - 1 ==> ss[i].LibreOffice? && ss[i].command in KnownPaths && ss[i].command in installed)
      && (forall p :: p in KnownPaths && p in installed ==> LibreOffice(p) in ss[2..|ss| - 1])
  {
    var ss := Strategies(installed);
    var mid := Installed(KnownPaths, installed);
    assert ss[2..|ss| - 1] == mid;
    forall i | 2 <= i < |ss| - 1
      ensures ss[i].LibreOffice? && ss[i].command in KnownPaths && ss[i].command in installed
    {
      assert ss[i] == mid[i - 2];
    }
  }

  /** Every path installed: each becomes a LibreOffice strategy, in list order. */
  lemma {:induction false} InstalledAll(paths: seq<string>, installed: set<string>)
    requires forall p :: p in paths ==> p in installed
    ensures var r := Installed(paths, installed);
      |r| == |paths| && forall i :: 0 <= i < |r| ==> r[i] == LibreOffice(paths[i])
  {
    if |paths| > 0 {
      assert paths[0] in paths;
      InstalledAll(paths[1..], installed);
    }
  }

  /** With every known location installed, the chain tries all of them, in list order, between the search path and docx2pdf. */
  lemma AllInstalledOrder(installed: set<string>)
    requires forall p :: p in KnownPaths ==> p in installed
    ensures var ss := Strategies(installed);
      && |ss| == 3 + |KnownPaths|
      && ss[0] == WordAutomation && ss[1] == LibreOffice(PathCommand) && ss[|ss| - 1] == Docx2Pdf
      && forall i :: 0 <= i < |KnownPaths| ==> ss[i + 2] == LibreOffice(KnownPaths[i])
  {
    InstalledAll(KnownPaths, installed);
  }

  /** With none installed, the chain is Word, LibreOffice on the search path, docx2pdf. */
  lemma NoneInstalledOrder(installed: set<string>)
    requires forall p :: p in KnownPaths ==> p !in installed
    ensures Strategies(installed) == [WordAutomation, LibreOffice(PathCommand), Docx2Pdf]
  {
    NoneInstalled(KnownPaths, installed);
  }

  lemma {:induction false} NoneInstalled(paths: seq<string>, installed: set<string>)
    requires forall p :: p in paths ==> p !in installed
    ensures Installed(paths, installed) == []
  {
    if |paths| > 0 {
      assert paths[0] in paths;
      NoneInstalled(paths[1..], installed);
    }
  }

  /** Word automation counts as a success without looking at the disk. */
  lemma WordSuccessUnchecked<D>(docxPath: string, installed: set<string>, oracle: Strategy -> Attempt, disk: Disk<D>)
    requires !oracle(WordAutomation).raised && !oracle(WordAutomation).writesPdf
    ensures var r := ConvertDocx(docxPath, installed, oracle, disk);
      r.ok && r.tried == [WordAutomation] && r.disk == disk
  {
  }

  /** A LibreOffice run that exits with code 0 succeeds on an old PDF it did not write. */
  lemma StalePdfCountsForLibreOffice<D>(stale: D, installed: set<string>, oracle: Strategy -> Attempt, docx: Option<D>)
    requires oracle(WordAutomation).raised && !oracle(WordAutomation).writesPdf
    requires oracle(LibreOffice(PathCommand)) == Attempt(false, 0, false)
    ensures var r := ConvertDocx("resume.docx", installed, oracle, Disk(docx, Some(stale)));
      r.ok && r.tried == [WordAutomation, LibreOffice(PathCommand)] && r.disk.pdf == Some(stale)
  {
    var ss := Strategies(installed);
    var disk := Disk(docx, Some(stale));
    assert ss[0] == WordAutomation && ss[1..][0] == LibreOffice(PathCommand);
    assert RunChain(ss[1..], oracle, disk) == ChainResult(true, [LibreOffice(PathCommand)], disk);
    assert RunChain(ss, oracle, disk) == ChainResult(true, [WordAutomation, LibreOffice(PathCommand)], disk);
  }
}

=== FILE: export.dfy ===
/**
 * The export step of the resume generator: given the rendered document (or
 * the error that stopped rendering), save the DOCX, convert it to PDF, and
 * tidy up, according to the chosen output format. The result is the boolean
 * the generator reports together with the two files afterwards.
 *
 * Rendering is the Layout module's job; here it is a `Result` value, so that
 * the flow can be stated for any document type.
 */
module Export {
  import opened Wrappers
  import opened Convert
  import Layout

  /** The three choices of the format drop-down. */
  datatype Format = DocxOnly | PdfOnly | Both

  /** What the generator reports, and the DOCX and PDF afterwards. */
  datatype Outcome<D> = Outcome(ok: bool, disk: Disk<D>)

  predicate WantsDocx(fmt: Format) {
    fmt == DocxOnly || fmt == Both
  }

  predicate WantsPdf(fmt: Format) {
    fmt == PdfOnly || fmt == Both
  }

  /**
   * The export flow as the program runs it. The DOCX is rendered and saved
   * for "DOCX Only" and "Both"; a rendering error ends the run with False.
   * For "PDF Only" a DOCX is rendered (by a nested "DOCX Only" run whose own
   * result is ignored) only when none is already at the path; then the
   * conversion chain runs. A failed conversion is reported only for
   * "PDF Only"; on success "PDF Only" removes the DOCX.
   */
  function Generate<D, E>(fmt: Format, rendered: Result<D, E>, docxPath: string, installed: set<string>,
                          oracle: Strategy -> Attempt, disk: Disk<D>): (r: Outcome<D>)
    ensures r.ok && WantsDocx(fmt) ==> rendered.Success?
    ensures !WantsPdf(fmt) ==> r.disk.pdf == disk.pdf
    decreases if fmt == PdfOnly then 1 else 0
  {
    if WantsDocx(fmt) && rendered.Failure? then Outcome(false, disk)
    else
      var saved := if WantsDocx(fmt) then disk.(docx := Some(rendered.value)) else disk;
      if !WantsPdf(fmt) then Outcome(true, saved)
      else
        var input :=
          if fmt == PdfOnly && saved.docx.None?
          then Generate(DocxOnly, rendered, docxPath, installed, oracle, saved).disk
          else saved;
        var c := ConvertDocx(docxPath, installed, oracle, input);
        if !c.ok && fmt == PdfOnly then Outcome(false, c.disk)
        else if fmt == PdfOnly && c.disk.docx.Some? then Outcome(true, c.disk.(docx := None))
        else Outcome(true, c.disk)
  }

  /** The DOCX handed to the converter when the run starts from `disk`. */
  function ConverterInput<D, E>(fmt: Format, rendered: Result<D, E>, disk: Disk<D>): Option<D> {
    if WantsDocx(fmt) || (fmt == PdfOnly && disk.docx.None?) then
      if rendered.Success? then Some(rendered.value) else disk.docx
    else disk.docx
  }

  // ---------------------------------------------------------------------------
  // The three formats
  // ---------------------------------------------------------------------------

  /** "DOCX Only": True exactly when rendering succeeds, which saves the document; no conversion. */
  lemma DocxOnlyOutcome<D, E>(rendered: Result<D, E>, docxPath: string, installed: set<string>,
                              oracle: Strategy -> Attempt, disk: Disk<D>)
    ensures var r := Generate(DocxOnly, rendered, docxPath, installed, oracle, disk);
      && (r.ok <==> rendered.Success?)
      && (r.ok ==> r.disk == Disk(Some(rendered.value), disk.pdf))
      && (!r.ok ==> r.disk == disk)
  {
  }

  /**
   * "Both": True exactly when rendering succeeds, whether or not any
   * conversion strategy succeeds; the DOCX stays, and the PDF is what the
   * chain leaves.
   */
  lemma BothOutcome<D, E>(rendered: Result<D, E>, docxPath: string, installed: set<string>,
                          oracle: Strategy -> Attempt, disk: Disk<D>)
    ensures var r := Generate(Both, rendered, docxPath, installed, oracle, disk);
      && (r.ok <==> rendered.Success?)
      && (r.ok ==> r.disk.docx == Some(rendered.value))
      && (r.ok ==> r.disk == ConvertDocx(docxPath, installed, oracle, Disk(Some(rendered.value), disk.pdf)).disk)
      && (!r.ok ==> r.disk == disk)
  {
  }

  /** "Both" reports True even when every strategy fails and no PDF is produced. */
  lemma BothIgnoresConversionFailure<D, E>(rendered: Result<D, E>, docxPath: string, installed: set<string>,
                                           oracle: Strategy -> Attempt, disk: Disk<D>)
    requires rendered.Success?
    requires !ConvertDocx(docxPath, installed, oracle, Disk(Some(rendered.value), disk.pdf)).ok
    ensures var r := Generate(Both, rendered, docxPath, installed, oracle, disk);
      r.ok && r.disk.pdf == ConvertDocx(docxPath, installed, oracle, Disk(Some(rendered.value), disk.pdf)).disk.pdf
  {
  }

  /**
   * "PDF Only": True exactly when the conversion chain succeeds on the DOCX
   * at the path. On True no DOCX is left behind; on False the DOCX the chain
   * was given stays.
   */
  lemma {:induction false} PdfOnlyOutcome<D, E>(rendered: Result<D, E>, docxPath: string, installed: set<string>,
                                                oracle: Strategy -> Attempt, disk: Disk<D>)
    ensures var r := Generate(PdfOnly, rendered, docxPath, installed, oracle, disk);
      var input := Disk(ConverterInput(PdfOnly, rendered, disk), disk.pdf);
      var c := ConvertDocx(docxPath, installed, oracle, input);
      && (r.ok <==> c.ok)
      && (r.ok ==> r.disk.docx.None?)
      && (!r.ok ==> r.disk.docx == input.docx)
      && r.disk.pdf == c.disk.pdf
  {
    var input := Disk(ConverterInput(PdfOnly, rendered, disk), disk.pdf);
    if disk.docx.None? {
      DocxOnlyOutcome(rendered, docxPath, installed, oracle, disk);
      assert Generate(DocxOnly, rendered, docxPath, installed, oracle, disk).disk == input;
    }
  }

  /** Whatever the format, the converter sees the DOCX that ConverterInput names. */
  lemma {:induction false} ConverterSees<D, E>(fmt: Format, rendered: Result<D, E>, docxPath: string, installed: set<string>,
                                              oracle: Strategy -> Attempt, disk: Disk<D>)
    requires WantsPdf(fmt)
    requires WantsDocx(fmt) ==> rendered.Success?
    ensures var r := Generate(fmt, rendered, docxPath, installed, oracle, disk);
      r.disk.pdf == ConvertDocx(docxPath, installed, oracle, Disk(ConverterInput(fmt, rendered, disk), disk.pdf)).disk.pdf
  {
    if fmt == PdfOnly {
      PdfOnlyOutcome(rendered, docxPath, installed, oracle, disk);
    } else {
      BothOutcome(rendered, docxPath, installed, oracle, disk);
    }
  }

  // ---------------------------------------------------------------------------
  // A DOCX already at the path is converted instead of the new render
  // ---------------------------------------------------------------------------

  /**
   * "PDF Only" with a DOCX left from an earlier run: the chain converts the
   * old file, the run reports True, the PDF holds the old content and the old
   * DOCX is deleted. Word automation is taken to succeed and write the PDF.
   */
  lemma StaleDocxConverted(stale: int, current: int)
    requires stale != current
    ensures var oracle := (s: Strategy) => Attempt(false, 0, true);
      var rendered: Result<int, Layout.RenderError> := Success(current);
      var r := Generate(PdfOnly, rendered, "Yallaiah_Data_Engineer.docx", {}, oracle, Disk(Some(stale), None));
      r.ok && r.disk == Disk(None, Some(stale)) && r.disk.pdf != Some(current)
  {
    var oracle := (s: Strategy) => Attempt(false, 0, true);
    var disk := Disk(Some(stale), None);
    StrategyOrder({});
    var ss := Strategies({});
    assert RunChain(ss, oracle, disk) == ChainResult(true, [WordAutomation], Disk(Some(stale), Some(stale)));
  }

  /** The same flow, with "PDF Only" always rendering the DOCX before converting it. */
  function GenerateFresh<D, E>(fmt: Format, rendered: Result<D, E>, docxPath: string, installed: set<string>,
                               oracle: Strategy -> Attempt, disk: Disk<D>): (r: Outcome<D>)
    ensures r.ok ==> rendered.Success?
    ensures !WantsPdf(fmt) ==> r.disk.pdf == disk.pdf
  {
    if rendered.Failure? then Outcome(false, disk)
    else
      var saved := disk.(docx := Some(rendered.value));
      if !WantsPdf(fmt) then Outcome(true, saved)
      else
        var c := ConvertDocx(docxPath, installed, oracle, saved);
        if !c.ok && fmt == PdfOnly then Outcome(false, c.disk)
        else if fmt == PdfOnly then Outcome(true, c.disk.(docx := None))
        else Outcome(true, c.disk)
  }

  /**
   * With fresh rendering, a PDF that changes during the run holds this run's
   * document, whatever was on disk before and whichever strategy wrote it.
   */
  lemma FreshPdfIsNewRender<D, E>(fmt: Format, rendered: Result<D, E>, docxPath: string, installed: set<string>,
                                  oracle: Strategy -> Attempt, disk: Disk<D>)
    ensures var r := GenerateFresh(fmt, rendered, docxPath, installed, oracle, disk);
      r.disk.pdf != disk.pdf ==> rendered.Success? && r.disk.pdf == Some(rendered.value)
  {
    if rendered.Success? && WantsPdf(fmt) {
      ChainWritesOnlyDocx(Strategies(installed), oracle, disk.(docx := Some(rendered.value)));
    }
  }

  /** A PDF the chain changes is a copy of the DOCX it was given. */
  lemma {:induction false} ChainWritesOnlyDocx<D>(ss: seq<Strategy>, oracle: Strategy -> Attempt, disk: Disk<D>)
    ensures var c := RunChain(ss, oracle, disk);
      c.disk.pdf != disk.pdf ==> c.disk.pdf == disk.docx
  {
    if |ss| > 0 {
      var after := Apply(disk, oracle(ss[0]));
      if !Succeeded(ss[0], oracle(ss[0]), after) {
        ChainWritesOnlyDocx(ss[1..], oracle, after);
      }
    }
  }

  /** Where the program renders anyway, the corrected flow behaves the same. */
  lemma FreshAgreesWhenRendered<D, E>(fmt: Format, rendered: Result<D, E>, docxPath: string, installed: set<string>,
                                      oracle: Strategy -> Attempt, disk: Disk<D>)
    requires WantsDocx(fmt) || (disk.docx.None? && rendered.Success?)
    ensures GenerateFresh(fmt, rendered, docxPath, installed, oracle, disk) == Generate(fmt, rendered, docxPath, installed, oracle, disk)
  {
    if fmt == PdfOnly {
      DocxOnlyOutcome(rendered, docxPath, installed, oracle, disk);
    }
  }

  // ---------------------------------------------------------------------------
  // With the layout's renderer
  // ---------------------------------------------------------------------------

  /** "DOCX Only" on a resume reports False exactly when the name or a job's role or company is missing. */
  lemma DocxOnlyOnResume(res: Layout.Resume, st: Layout.Style, docxPath: string, installed: set<string>,
                         oracle: Strategy -> Attempt, disk: Disk<seq<Layout.Block>>)
    requires Layout.ValidStyle(st)
    ensures var r := Generate(DocxOnly, Layout.Render(res, st), docxPath, installed, oracle, disk);
      !r.ok <==> res.name.None? || exists j :: 0 <= j < |res.experience| && (res.experience[j].role.None? || res.experience[j].company.None?)
  {
    Layout.RenderFailsIffKeyMissing(res, st);
    DocxOnlyOutcome(Layout.Render(res, st), docxPath, installed, oracle, disk);
  }
}

=== FILE: filename.dfy ===
/**
 * Output file names derived from the resume title: the title is stripped,
 * characters outside `[\w\s-]` are deleted, each whitespace run becomes one
 * underscore, and the result is prefixed with the owner's name.
 */
module Filename {
  import opened Text

  const Prefix: string := "Yallaiah_"

  /** The name used when the title is empty. */
  const DefaultName: string := "Yallaiah_Senior_Data_Engineer"

  /** Characters kept by `re.sub(r'[^\w\s-]', '', ...)`. */
  predicate Allowed(c: char) {
    IsWord(c) || IsSpace(c) || c == '-'
  }

  /** Delete every character outside `[\w\s-]`. */
  function KeepAllowed(s: string): (r: string)
    ensures |r| <= |s|
    ensures forall i :: 0 <= i < |r| ==> Allowed(r[i])
  {
    if |s| == 0 then ""
    else
      var rest := KeepAllowed(s[1..]);
      if Allowed(s[0]) then [s[0]] + rest else rest
  }

  /** Every allowed character survives as often as it occurs; every other one is gone. */
  lemma {:induction false} KeepAllowedCounts(s: string)
    ensures forall c :: multiset(KeepAllowed(s))[c] == if Allowed(c) then multiset(s)[c] else 0
    decreases |s|
  {
    if |s| > 0 {
      KeepAllowedCounts(s[1..]);
      assert s == [s[0]] + s[1..];
    }
  }

  /**
   * Deleting works character by character: the kept characters of a + b are
   * those of a followed by those of b, so the survivors keep their order.
   */
  lemma {:induction false} KeepAllowedAppend(a: string, b: string)
    ensures KeepAllowed(a + b) == KeepAllowed(a) + KeepAllowed(b)
    decreases |a|
  {
    if |a| == 0 {
      assert a + b == b;
    } else {
      var ab := a + b;
      assert ab[0] == a[0];
      assert ab[1..] == a[1..] + b;
      KeepAllowedAppend(a[1..], b);
    }
  }

  /** Text without forbidden characters is left as it is. */
  lemma {:induction false} KeepAllowedIdentity(s: string)
    requires forall i :: 0 <= i < |s| ==> Allowed(s[i])
    ensures KeepAllowed(s) == s
    decreases |s|
  {
    if |s| > 0 {
      KeepAllowedIdentity(s[1..]);
    }
  }

  /** Drop the whitespace at the front of s. */
  function DropSpaces(s: string): (r: string)
    ensures |r| <= |s| && r == s[|s| - |r|..]
    ensures |r| > 0 ==> !IsSpace(r[0])
  {
    if |s| > 0 && IsSpace(s[0]) then DropSpaces(s[1..]) else s
  }

  /** `re.sub(r'[\s]+', '_', s)`: each maximal run of whitespace becomes one underscore. */
  function CollapseSpaces(s: string): (r: string)
    ensures |r| <= |s|
    ensures forall i :: 0 <= i < |r| ==> !IsSpace(r[i])
    decreases |s|
  {
    if |s| == 0 then ""
    else if IsSpace(s[0]) then "_" + CollapseSpaces(DropSpaces(s[1..]))
    else [s[0]] + CollapseSpaces(s[1..])
  }

  /**
   * The collapse read left to right, one character at a time: a whitespace
   * character that follows another whitespace character is dropped, any other
   * whitespace character becomes '_', and every other character is kept.
   * `afterSpace` says whether the character before s[0] was whitespace.
   */
  function Underscored(s: string, afterSpace: bool): string {
    if |s| == 0 then ""
    else if IsSpace(s[0]) then (if afterSpace then "" else "_") + Underscored(s[1..], true)
    else [s[0]] + Underscored(s[1..], false)
  }

  /**
   * The collapse is the left-to-right reading: every character is kept, every
   * whitespace run becomes exactly one '_'. After whitespace, the collapse of
   * what follows the leading whitespace gives the same text.
   */
  lemma {:induction false} CollapseIsUnderscored(s: string)
    ensures CollapseSpaces(s) == Underscored(s, false)
    ensures CollapseSpaces(DropSpaces(s)) == Underscored(s, true)
    decreases |s|
  {
    if |s| > 0 {
      CollapseIsUnderscored(s[1..]);
    }
  }

  /** The characters that are neither whitespace nor underscores, in order. */
  function Content(s: string): string {
    if |s| == 0 then ""
    else if IsSpace(s[0]) || s[0] == '_' then Content(s[1..])
    else [s[0]] + Content(s[1..])
  }

  lemma {:induction false} ContentOfDropped(s: string)
    ensures Content(DropSpaces(s)) == Content(s)
    decreases |s|
  {
    if |s| > 0 && IsSpace(s[0]) {
      ContentOfDropped(s[1..]);
    }
  }

  /** Collapsing whitespace changes only whitespace and underscores: the rest survives in order. */
  lemma {:induction false} CollapseKeepsContent(s: string)
    ensures Content(CollapseSpaces(s)) == Content(s)
    decreases |s|
  {
    if |s| > 0 {
      if IsSpace(s[0]) {
        var d := DropSpaces(s[1..]);
        CollapseKeepsContent(d);
        ContentOfDropped(s[1..]);
        assert ("_" + CollapseSpaces(d))[1..] == CollapseSpaces(d);
      } else {
        CollapseKeepsContent(s[1..]);
        assert ([s[0]] + CollapseSpaces(s[1..]))[1..] == CollapseSpaces(s[1..]);
      }
    }
  }

  /** Text without whitespace is left as it is. */
  lemma {:induction false} CollapseIdentity(s: string)
    requires forall i :: 0 <= i < |s| ==> !IsSpace(s[i])
    ensures CollapseSpaces(s) == s
    decreases |s|
  {
    if |s| > 0 {
      CollapseIdentity(s[1..]);
    }
  }

  /** Collapsing twice is collapsing once. */
  lemma CollapseIdempotent(s: string)
    ensures CollapseSpaces(CollapseSpaces(s)) == CollapseSpaces(s)
  {
    CollapseIdentity(CollapseSpaces(s));
  }

  /** The title part of the file name: strip, drop forbidden characters, collapse whitespace. */
  function CleanTitle(title: string): (r: string)
    ensures forall i :: 0 <= i < |r| ==> IsWord(r[i]) || r[i] == '-'
    ensures r == Underscored(KeepAllowed(Strip(title)), false)
    ensures Content(r) == Content(KeepAllowed(Strip(title)))
  {
    var kept := KeepAllowed(Strip(title));
    CollapseOnlyUnderscores(kept);
    CollapseKeepsContent(kept);
    CollapseIsUnderscored(kept);
    CollapseSpaces(kept)
  }

  /** Collapsing adds no character other than the underscore. */
  lemma {:induction false} CollapseOnlyUnderscores(s: string)
    ensures forall i :: 0 <= i < |CollapseSpaces(s)| ==>
      CollapseSpaces(s)[i] == '_' || CollapseSpaces(s)[i] in s
    decreases |s|
  {
    if |s| > 0 {
      if IsSpace(s[0]) {
        var d := DropSpaces(s[1..]);
        CollapseOnlyUnderscores(d);
        forall i | 0 <= i < |CollapseSpaces(s)| ensures CollapseSpaces(s)[i] == '_' || CollapseSpaces(s)[i] in s {
          if i > 0 {
            assert CollapseSpaces(s)[i] == CollapseSpaces(d)[i - 1];
            assert d == s[|s| - |d|..];
          }
        }
      } else {
        CollapseOnlyUnderscores(s[1..]);
        forall i | 0 <= i < |CollapseSpaces(s)| ensures CollapseSpaces(s)[i] == '_' || CollapseSpaces(s)[i] in s {
          if i > 0 {
            assert CollapseSpaces(s)[i] == CollapseSpaces(s[1..])[i - 1];
          }
        }
      }
    }
  }

  /**
   * `update_filename_from_json`: the name derived from a title, or the default
   * name when the stripped title is empty.
   */
  function Derive(title: string): (r: string)
    ensures StartsWith(r, Prefix)
    ensures forall i :: 0 <= i < |r| ==> !IsSpace(r[i])
    ensures |Strip(title)| == 0 ==> r == DefaultName
    ensures |Strip(title)| > 0 ==>
      && (forall i :: |Prefix| <= i < |r| ==> IsWord(r[i]) || r[i] == '-')
      && r[|Prefix|..] == Underscored(KeepAllowed(Strip(title)), false)
      && Content(r[|Prefix|..]) == Content(KeepAllowed(Strip(title)))
  {
    NamesHaveNoSpace();
    if |Strip(title)| == 0 then
      assert DefaultName[..|Prefix|] == Prefix;
      DefaultName
    else
      var c := CleanTitle(title);
      Prefixed(c);
      Prefix + c
  }

  /** The fixed prefix and the default name hold no whitespace; the default name starts with the prefix. */
  lemma NamesHaveNoSpace()
    ensures forall i :: 0 <= i < |Prefix| ==> !IsSpace(Prefix[i])
    ensures forall i :: 0 <= i < |DefaultName| ==> !IsSpace(DefaultName[i])
  {
  }

  /** The prefix followed by a cleaned title: the title's characters sit after the prefix. */
  lemma Prefixed(c: string)
    ensures (Prefix + c)[..|Prefix|] == Prefix
    ensures (Prefix + c)[|Prefix|..] == c
    ensures forall i :: |Prefix| <= i < |Prefix + c| ==> (Prefix + c)[i] == c[i - |Prefix|]
  {
  }

  /** A whitespace-free prefix passes through the collapse unchanged. */
  lemma {:induction false} CollapseAfterWord(a: string, b: string)
    requires forall i :: 0 <= i < |a| ==> !IsSpace(a[i])
    ensures CollapseSpaces(a + b) == a + CollapseSpaces(b)
    decreases |a|
  {
    if |a| > 0 {
      var ab, tl := a + b, a[1..];
      assert ab[0] == a[0] && !IsSpace(ab[0]);
      assert ab[1..] == tl + b;
      assert CollapseSpaces(ab) == [a[0]] + CollapseSpaces(tl + b);
      CollapseAfterWord(tl, b);
      assert a == [a[0]] + tl;
    } else {
      assert a + b == b;
    }
  }

  lemma {:induction false} DropSpacesRun(w: string, b: string)
    requires forall i :: 0 <= i < |w| ==> IsSpace(w[i])
    requires |b| > 0 ==> !IsSpace(b[0])
    ensures DropSpaces(w + b) == b
    decreases |w|
  {
    if |w| > 0 {
      DropSpacesRun(w[1..], b);
      assert (w + b)[0] == w[0];
      assert (w + b)[1..] == w[1..] + b;
    } else {
      assert w + b == b;
    }
  }

  /**
   * A maximal whitespace run, however long and whichever whitespace characters
   * it holds, becomes exactly one underscore.
   */
  lemma CollapseRun(a: string, w: string, b: string)
    requires forall i :: 0 <= i < |a| ==> !IsSpace(a[i])
    requires |w| > 0 && forall i :: 0 <= i < |w| ==> IsSpace(w[i])
    requires |b| > 0 ==> !IsSpace(b[0])
    ensures CollapseSpaces(a + w + b) == a + "_" + CollapseSpaces(b)
  {
    assert a + w + b == a + (w + b);
    CollapseAfterWord(a, w + b);
    CollapseRunHead(w, b);
    assert a + ("_" + CollapseSpaces(b)) == a + "_" + CollapseSpaces(b);
  }

  lemma CollapseRunHead(w: string, b: string)
    requires |w| > 0 && forall i :: 0 <= i < |w| ==> IsSpace(w[i])
    requires |b| > 0 ==> !IsSpace(b[0])
    ensures CollapseSpaces(w + b) == "_" + CollapseSpaces(b)
  {
    var s := w + b;
    assert s[0] == w[0];
    assert s[1..] == w[1..] + b;
    DropSpacesRun(w[1..], b);
    assert DropSpaces(s[1..]) == b;
    assert CollapseSpaces(s) == "_" + CollapseSpaces(DropSpaces(s[1..]));
  }

  /**
   * The name `generate_resume` uses: a non-empty stripped title replaces the
   * user's file name unless that name already starts with the prefix and the
   * title with blanks turned into underscores (the title is not sanitised for
   * this check); an empty title turns the configured default file name into
   * DefaultName; otherwise the user's name is kept.
   */
  function Choose(filename: string, title: string, configuredDefault: string): (r: string)
    ensures r == filename || r == Derive(title)
    ensures |Strip(title)| > 0 && !StartsWith(filename, Prefix + ReplaceSpaces(Strip(title))) ==>
      r == Derive(title)
    ensures |Strip(title)| > 0 && StartsWith(filename, Prefix + ReplaceSpaces(Strip(title))) ==>
      r == filename
    ensures |Strip(title)| == 0 ==> r == (if filename == configuredDefault then DefaultName else filename)
  {
    var t := Strip(title);
    if |t| > 0 && !StartsWith(filename, Prefix + ReplaceSpaces(t)) then Derive(title)
    else if |t| == 0 && filename == configuredDefault then DefaultName
    else filename
  }

  /** Choosing the name again with the same title changes nothing. */
  lemma ChooseIdempotent(filename: string, title: string, configuredDefault: string)
    ensures var once := Choose(filename, title, configuredDefault);
      Choose(once, title, configuredDefault) == once
  {
  }

  /**
   * A user file name that already starts with the prefix and the raw title is
   * kept even when it holds a character the sanitiser would delete, so the
   * kept name is one Derive never produces.
   */
  lemma ChooseKeepsUnsanitised(title: string, configuredDefault: string, i: nat)
    requires i < |Strip(title)| && !Allowed(Strip(title)[i])
    ensures var name := Prefix + ReplaceSpaces(Strip(title));
      Choose(name, title, configuredDefault) == name && name != Derive(title)
  {
    var t := Strip(title);
    var name := Prefix + ReplaceSpaces(t);
    assert name[..|Prefix + ReplaceSpaces(t)|] == name;
    assert name[|Prefix| + i] == t[i];
  }
}

=== FILE: highlight.dfy ===
/**
 * Keyword highlighting (`make_text_bold_for_skills`): a text is cut into plain
 * and bold runs, the bold runs being the whole-word, case-insensitive keyword
 * matches that a left-to-right `re.finditer` over the alternation
 * `\bk1\b|\bk2\b|...` finds, with the keywords stably sorted longest first.
 */
module Highlight {
  import opened Wrappers
  import opened Text

  /** A run of text sharing one formatting decision. */
  datatype Run = Run(text: string, bold: bool, font: string, size: int)

  /** A keyword match found by the scan: it covers [start, start + |keyword|). */
  datatype Match = Match(start: nat, keyword: string)

  function End(m: Match): nat {
    m.start + |m.keyword|
  }

  /** Empty keywords would produce zero-width regex matches; they are excluded. */
  predicate ValidKeywords(ks: seq<string>) {
    forall i :: 0 <= i < |ks| ==> |ks[i]| > 0
  }

  // ---------------------------------------------------------------------------
  // Matching one keyword at one position
  // ---------------------------------------------------------------------------

  /** Is position q of t a word character? Positions outside t count as non-word. */
  predicate IsWordAt(t: string, q: int) {
    0 <= q < |t| && IsWord(t[q])
  }

  /** `\b` at position p: the word-ness of the characters on either side differs. */
  predicate Boundary(t: string, p: int) {
    IsWordAt(t, p - 1) != IsWordAt(t, p)
  }

  /**
   * `\b<escaped kw>\b` matches at position i of t under IGNORECASE: the
   * characters of t from i on equal kw up to ASCII case, with a word boundary
   * on both sides.
   */
  predicate MatchAt(t: string, i: int, kw: string) {
    && 0 <= i && i + |kw| <= |t|
    && (forall q :: 0 <= q < |kw| ==> Lower(t[i + q]) == Lower(kw[q]))
    && Boundary(t, i)
    && Boundary(t, i + |kw|)
  }

  /**
   * IGNORECASE makes the keyword's own case irrelevant: two keywords equal up
   * to ASCII case match at exactly the same positions.
   */
  lemma MatchIgnoresKeywordCase(t: string, i: int, kw: string, k2: string)
    requires EqualsIgnoreCase(kw, k2)
    ensures MatchAt(t, i, kw) <==> MatchAt(t, i, k2)
  {
  }

  /** No keyword of ks matches at position j of t. */
  predicate NoKeywordAt(t: string, ks: seq<string>, j: int) {
    forall b :: 0 <= b < |ks| ==> !MatchAt(t, j, ks[b])
  }

  /**
   * The alternation semantics at one position: the first keyword, in pattern
   * order, whose whole-word pattern matches at i.
   */
  function FirstMatch(t: string, i: int, ps: seq<string>): (r: Option<string>)
    ensures r.None? <==> NoKeywordAt(t, ps, i)
    ensures r.Some? ==> r.value in ps && MatchAt(t, i, r.value)
  {
    if |ps| == 0 then None
    else if MatchAt(t, i, ps[0]) then Some(ps[0])
    else
      var r := FirstMatch(t, i, ps[1..]);
      assert r.None? ==> NoKeywordAt(t, ps, i) by {
        if r.None? {
          forall b | 0 <= b < |ps| ensures !MatchAt(t, i, ps[b]) {
            if b > 0 { assert ps[b] == ps[1..][b - 1]; }
          }
        }
      }
      assert r.None? <== NoKeywordAt(t, ps, i) by {
        if r.Some? {
          var b :| 0 <= b < |ps[1..]| && ps[1..][b] == r.value;
          assert ps[b + 1] == r.value;
        }
      }
      r
  }

  /** The keyword FirstMatch returns is the first one in pattern order that matches. */
  lemma {:induction false} FirstMatchIsFirst(t: string, i: int, ps: seq<string>)
    requires FirstMatch(t, i, ps).Some?
    ensures exists b :: 0 <= b < |ps| && ps[b] == FirstMatch(t, i, ps).value && MatchAt(t, i, ps[b])
                        && forall a :: 0 <= a < b ==> !MatchAt(t, i, ps[a])
    decreases |ps|
  {
    if !MatchAt(t, i, ps[0]) {
      var r := FirstMatch(t, i, ps[1..]);
      FirstMatchIsFirst(t, i, ps[1..]);
      var b :| 0 <= b < |ps[1..]| && ps[1..][b] == r.value && MatchAt(t, i, ps[1..][b])
               && forall a :: 0 <= a < b ==> !MatchAt(t, i, ps[1..][a]);
      assert ps[b + 1] == r.value;
      forall a | 0 <= a < b + 1 ensures !MatchAt(t, i, ps[a]) {
        if a > 0 { assert ps[a] == ps[1..][a - 1]; }
      }
    } else {
      assert ps[0] == FirstMatch(t, i, ps).value;
    }
  }

  // ---------------------------------------------------------------------------
  // The keyword order: sorted(bold_skills, key=len, reverse=True)
  // ---------------------------------------------------------------------------

  predicate LongestFirst(s: seq<string>) {
    forall i, j :: 0 <= i < j < |s| ==> |s[i]| >= |s[j]|
  }

  /** Insert k after every element at least as long as k (which keeps the sort stable). */
  function InsertByLength(k: string, s: seq<string>): (r: seq<string>)
    requires LongestFirst(s)
    ensures LongestFirst(r)
    ensures multiset(r) == multiset(s) + multiset{k}
    ensures |r| > 0 && (r[0] == k || (|s| > 0 && r[0] == s[0]))
  {
    if |s| == 0 then [k]
    else if |s[0]| < |k| then
      LongestFirstCons(k, s);
      [k] + s
    else
      var rest := InsertByLength(k, s[1..]);
      assert s == [s[0]] + s[1..];
      assert |rest[0]| <= |s[0]| by {
        if rest[0] != k { assert rest[0] == s[1]; }
      }
      LongestFirstCons(s[0], rest);
      [s[0]] + rest
  }

  /** A keyword at least as long as the head of a longest-first list can go in front. */
  lemma LongestFirstCons(x: string, s: seq<string>)
    requires LongestFirst(s)
    requires |s| > 0 ==> |x| >= |s[0]|
    ensures LongestFirst([x] + s)
  {
    var r := [x] + s;
    forall i, j | 0 <= i < j < |r| ensures |r[i]| >= |r[j]| {
      assert r[j] == s[j - 1];
      if i > 0 { assert r[i] == s[i - 1]; } else if j > 1 { assert |s[0]| >= |s[j - 1]|; }
    }
  }

  /** Python's stable `sorted(ks, key=len, reverse=True)`. */
  function SortByLength(ks: seq<string>): (r: seq<string>)
    ensures LongestFirst(r)
    ensures multiset(r) == multiset(ks)
    ensures ValidKeywords(ks) ==> ValidKeywords(r)
  {
    if |ks| == 0 then []
    else
      assert ks == ks[..|ks| - 1] + [ks[|ks| - 1]];
      var r := InsertByLength(ks[|ks| - 1], SortByLength(ks[..|ks| - 1]));
      assert ValidKeywords(ks) ==> ValidKeywords(r) by {
        if ValidKeywords(ks) {
          forall i | 0 <= i < |r| ensures |r[i]| > 0 {
            assert r[i] in multiset(ks);
          }
        }
      }
      r
  }

  // ---------------------------------------------------------------------------
  // Reference definition of the keyword chosen at a position
  // ---------------------------------------------------------------------------

  /**
   * k = ks[b] matches at i, no matching keyword is longer, and every matching
   * keyword listed before b is strictly shorter.
   */
  ghost predicate IsPreferred(ks: seq<string>, t: string, i: int, k: string) {
    exists b :: 0 <= b < |ks| && ks[b] == k && MatchAt(t, i, k)
                && (forall a :: 0 <= a < |ks| && MatchAt(t, i, ks[a]) ==> |ks[a]| <= |k|)
                && (forall a :: 0 <= a < b && MatchAt(t, i, ks[a]) ==> |ks[a]| < |k|)
  }

  /**
   * The keyword a reader expects to see bolded at position i: the longest one
   * that matches there, the earliest listed among equally long ones. Defined as
   * a single pass over the list in its original order, with no sorting.
   */
  function Preferred(ks: seq<string>, t: string, i: int): (r: Option<string>)
    ensures r.None? <==> NoKeywordAt(t, ks, i)
    ensures r.Some? ==> IsPreferred(ks, t, i, r.value)
  {
    if |ks| == 0 then None
    else
      var init := ks[..|ks| - 1];
      var best := Preferred(init, t, i);
      var k := ks[|ks| - 1];
      if MatchAt(t, i, k) && (best.None? || |k| > |best.value|) then
        assert IsPreferred(ks, t, i, k) by {
          forall a | 0 <= a < |ks| - 1 && MatchAt(t, i, ks[a]) ensures |ks[a]| < |k| {
            assert init[a] == ks[a];
            assert !NoKeywordAt(t, init, i);
            var c :| 0 <= c < |init| && init[c] == best.value && MatchAt(t, i, best.value)
                     && (forall a :: 0 <= a < |init| && MatchAt(t, i, init[a]) ==> |init[a]| <= |best.value|)
                     && (forall a :: 0 <= a < c && MatchAt(t, i, init[a]) ==> |init[a]| < |best.value|);
          }
        }
        Some(k)
      else
        assert best.None? ==> NoKeywordAt(t, ks, i) by {
          if best.None? {
            forall b | 0 <= b < |ks| ensures !MatchAt(t, i, ks[b]) {
              if b < |ks| - 1 { assert init[b] == ks[b]; }
            }
          }
        }
        assert best.Some? ==> IsPreferred(ks, t, i, best.value) by {
          if best.Some? {
            var c :| 0 <= c < |init| && init[c] == best.value && MatchAt(t, i, best.value)
                     && (forall a :: 0 <= a < |init| && MatchAt(t, i, init[a]) ==> |init[a]| <= |best.value|)
                     && (forall a :: 0 <= a < c && MatchAt(t, i, init[a]) ==> |init[a]| < |best.value|);
            assert ks[c] == best.value;
            forall a | 0 <= a < |ks| && MatchAt(t, i, ks[a]) ensures |ks[a]| <= |best.value| {
              if a < |ks| - 1 { assert init[a] == ks[a]; }
            }
            forall a | 0 <= a < c && MatchAt(t, i, ks[a]) ensures |ks[a]| < |best.value| {
              assert init[a] == ks[a];
            }
          }
        }
        best
  }

  /** At most one keyword is the preferred one. */
  lemma PreferredUnique(ks: seq<string>, t: string, i: int, k1: string, k2: string)
    requires IsPreferred(ks, t, i, k1) && IsPreferred(ks, t, i, k2)
    ensures k1 == k2
  {
    var b1 :| 0 <= b1 < |ks| && ks[b1] == k1 && MatchAt(t, i, k1)
              && (forall a :: 0 <= a < |ks| && MatchAt(t, i, ks[a]) ==> |ks[a]| <= |k1|)
              && (forall a :: 0 <= a < b1 && MatchAt(t, i, ks[a]) ==> |ks[a]| < |k1|);
    var b2 :| 0 <= b2 < |ks| && ks[b2] == k2 && MatchAt(t, i, k2)
              && (forall a :: 0 <= a < |ks| && MatchAt(t, i, ks[a]) ==> |ks[a]| <= |k2|)
              && (forall a :: 0 <= a < b2 && MatchAt(t, i, ks[a]) ==> |ks[a]| < |k2|);
    assert |k1| == |k2|;
    assert b1 == b2;
  }

  /** FirstMatch over a longest-first list with one more keyword inserted. */
  lemma {:induction false} FirstMatchInsert(t: string, i: int, x: string, s: seq<string>)
    requires LongestFirst(s)
    ensures FirstMatch(t, i, InsertByLength(x, s)) ==
            (var f := FirstMatch(t, i, s);
             if MatchAt(t, i, x) && (f.None? || |x| > |f.value|) then Some(x) else f)
    decreases |s|
  {
    if |s| == 0 {
    } else if |s[0]| < |x| {
      var f := FirstMatch(t, i, s);
      if f.Some? {
        FirstMatchIsFirst(t, i, s);
        var b :| 0 <= b < |s| && s[b] == f.value && MatchAt(t, i, s[b])
                 && forall a :: 0 <= a < b ==> !MatchAt(t, i, s[a]);
        assert |s[b]| <= |s[0]|;
      }
    } else {
      FirstMatchInsert(t, i, x, s[1..]);
      assert InsertByLength(x, s)[1..] == InsertByLength(x, s[1..]);
    }
  }

  /**
   * The alternation over the longest-first keyword list selects exactly the
   * reference choice: the longest matching keyword, the earliest listed on ties.
   */
  lemma {:induction false} SortedFirstMatchIsPreferred(ks: seq<string>, t: string, i: int)
    ensures FirstMatch(t, i, SortByLength(ks)) == Preferred(ks, t, i)
    decreases |ks|
  {
    if |ks| > 0 {
      var init := ks[..|ks| - 1];
      SortedFirstMatchIsPreferred(init, t, i);
      FirstMatchInsert(t, i, ks[|ks| - 1], SortByLength(init));
    }
  }

  // ---------------------------------------------------------------------------
  // The left-to-right scan: re.finditer
  // ---------------------------------------------------------------------------

  /** Matches are ordered, disjoint, non-empty, start at or after `from` and lie inside t. */
  predicate WellFormedMatches(t: string, ms: seq<Match>, from: nat)
    decreases |ms|
  {
    if |ms| == 0 then from <= |t|
    else
      && from <= ms[0].start
      && |ms[0].keyword| > 0
      && End(ms[0]) <= |t|
      && WellFormedMatches(t, ms[1..], End(ms[0]))
  }

  /**
   * `re.finditer(pattern, text, re.IGNORECASE)` from position pos, for a
   * pattern built from the keyword list ps: at each position the first
   * matching alternative wins, and the search resumes at the end of a match.
   */
  function Scan(t: string, ps: seq<string>, pos: nat): (ms: seq<Match>)
    requires ValidKeywords(ps)
    requires pos <= |t|
    ensures WellFormedMatches(t, ms, pos)
    decreases |t| - pos
  {
    if pos == |t| then []
    else
      match FirstMatch(t, pos, ps)
      case Some(k) =>
        assert |k| > 0 && pos + |k| <= |t|;
        [Match(pos, k)] + Scan(t, ps, pos + |k|)
      case None =>
        Scan(t, ps, pos + 1)
  }

  /** One step of the scan when a keyword matches at pos. */
  lemma {:induction false} ScanUnfoldHit(t: string, ps: seq<string>, pos: nat, k: string)
    requires ValidKeywords(ps)
    requires pos < |t|
    requires FirstMatch(t, pos, ps) == Some(k)
    ensures pos + |k| <= |t|
    ensures Scan(t, ps, pos) == [Match(pos, k)] + Scan(t, ps, pos + |k|)
  {
    assert MatchAt(t, pos, k);
  }

  /**
   * The scan's result described without reference to the scan: from `from`
   * on, the positions before each match start are unmatched, each match is the
   * preferred keyword at its start, and the tail after the last match is unmatched.
   */
  ghost predicate ScanSpec(t: string, ks: seq<string>, ms: seq<Match>, from: nat)
    decreases |ms|
  {
    if |ms| == 0 then
      forall j :: from <= j < |t| ==> NoKeywordAt(t, ks, j)
    else
      && from <= ms[0].start
      && (forall j :: from <= j < ms[0].start ==> NoKeywordAt(t, ks, j))
      && Preferred(ks, t, ms[0].start) == Some(ms[0].keyword)
      && ScanSpec(t, ks, ms[1..], End(ms[0]))
  }

  /** ScanSpec stated for the alternation over ps itself rather than the reference choice. */
  ghost predicate FindsFirst(t: string, ps: seq<string>, ms: seq<Match>, from: nat)
    decreases |ms|
  {
    if |ms| == 0 then
      forall j :: from <= j < |t| ==> FirstMatch(t, j, ps).None?
    else
      && from <= ms[0].start
      && (forall j :: from <= j < ms[0].start ==> FirstMatch(t, j, ps).None?)
      && FirstMatch(t, ms[0].start, ps) == Some(ms[0].keyword)
      && FindsFirst(t, ps, ms[1..], End(ms[0]))
  }

  /** The scan finds, left to right, exactly the first-alternative matches. */
  lemma {:induction false} ScanFindsFirst(t: string, ps: seq<string>, pos: nat)
    requires ValidKeywords(ps)
    requires pos <= |t|
    ensures FindsFirst(t, ps, Scan(t, ps, pos), pos)
    decreases |t| - pos, 1
  {
    if pos < |t| {
      if FirstMatch(t, pos, ps).Some? {
        ScanFindsFirstHit(t, ps, pos);
      } else {
        ScanFindsFirstMiss(t, ps, pos);
      }
    }
  }

  lemma {:induction false} ScanFindsFirstHit(t: string, ps: seq<string>, pos: nat)
    requires ValidKeywords(ps)
    requires pos < |t| && FirstMatch(t, pos, ps).Some?
    ensures FindsFirst(t, ps, Scan(t, ps, pos), pos)
    decreases |t| - pos, 0
  {
    var k := FirstMatch(t, pos, ps).value;
    assert |k| > 0 && pos + |k| <= |t|;
    var rest := Scan(t, ps, pos + |k|);
    ScanFindsFirst(t, ps, pos + |k|);
    FindsFirstStepHit(t, ps, pos, k, rest);
  }

  lemma {:induction false} ScanFindsFirstMiss(t: string, ps: seq<string>, pos: nat)
    requires ValidKeywords(ps)
    requires pos < |t| && FirstMatch(t, pos, ps).None?
    ensures FindsFirst(t, ps, Scan(t, ps, pos), pos)
    decreases |t| - pos, 0
  {
    var rest := Scan(t, ps, pos + 1);
    ScanFindsFirst(t, ps, pos + 1);
    FindsFirstStepMiss(t, ps, pos, rest);
  }

  lemma FindsFirstStepHit(t: string, ps: seq<string>, pos: nat, k: string, rest: seq<Match>)
    requires ValidKeywords(ps)
    requires pos < |t| && FirstMatch(t, pos, ps) == Some(k) && pos + |k| <= |t|
    requires rest == Scan(t, ps, pos + |k|)
    requires FindsFirst(t, ps, rest, pos + |k|)
    ensures FindsFirst(t, ps, Scan(t, ps, pos), pos)
  {
    ScanUnfoldHit(t, ps, pos, k);
    FindsFirstHit(t, ps, pos, k, rest);
  }

  lemma FindsFirstStepMiss(t: string, ps: seq<string>, pos: nat, rest: seq<Match>)
    requires ValidKeywords(ps)
    requires pos < |t| && FirstMatch(t, pos, ps).None?
    requires rest == Scan(t, ps, pos + 1)
    requires FindsFirst(t, ps, rest, pos + 1)
    ensures FindsFirst(t, ps, Scan(t, ps, pos), pos)
  {
    ScanUnfoldMiss(t, ps, pos);
    FindsFirstMiss(t, ps, rest, pos);
  }

  /** One step of the scan when no keyword matches at pos. */
  lemma ScanUnfoldMiss(t: string, ps: seq<string>, pos: nat)
    requires ValidKeywords(ps)
    requires pos < |t|
    requires FirstMatch(t, pos, ps).None?
    ensures Scan(t, ps, pos) == Scan(t, ps, pos + 1)
  {
  }

  lemma FindsFirstHit(t: string, ps: seq<string>, pos: nat, k: string, rest: seq<Match>)
    requires FirstMatch(t, pos, ps) == Some(k)
    requires FindsFirst(t, ps, rest, pos + |k|)
    ensures FindsFirst(t, ps, [Match(pos, k)] + rest, pos)
  {
    assert ([Match(pos, k)] + rest)[1..] == rest;
  }

  lemma FindsFirstMiss(t: string, ps: seq<string>, ms: seq<Match>, pos: nat)
    requires FirstMatch(t, pos, ps).None?
    requires FindsFirst(t, ps, ms, pos + 1)
    ensures FindsFirst(t, ps, ms, pos)
  {
  }

  /** At every position of t, the pattern list ps picks the preferred keyword of ks. */
  ghost predicate PicksPreferred(t: string, ks: seq<string>, ps: seq<string>) {
    forall j :: 0 <= j <= |t| ==> FirstMatch(t, j, ps) == Preferred(ks, t, j)
  }

  lemma SortedPicksPreferred(t: string, ks: seq<string>)
    ensures PicksPreferred(t, ks, SortByLength(ks))
  {
    forall j | 0 <= j <= |t| ensures FirstMatch(t, j, SortByLength(ks)) == Preferred(ks, t, j) {
      SortedFirstMatchIsPreferred(ks, t, j);
    }
  }

  /** When ps picks the preferred keywords, its first-alternative matches meet ScanSpec. */
  lemma {:induction false} FindsFirstMeetsSpec(t: string, ks: seq<string>, ps: seq<string>, ms: seq<Match>, from: nat)
    requires PicksPreferred(t, ks, ps)
    requires WellFormedMatches(t, ms, from)
    requires FindsFirst(t, ps, ms, from)
    ensures ScanSpec(t, ks, ms, from)
    decreases |ms|
  {
    if |ms| == 0 {
      forall j | from <= j < |t| ensures NoKeywordAt(t, ks, j) {
        assert FirstMatch(t, j, ps) == Preferred(ks, t, j);
      }
    } else {
      forall j | from <= j < ms[0].start ensures NoKeywordAt(t, ks, j) {
        assert FirstMatch(t, j, ps) == Preferred(ks, t, j);
      }
      FindsFirstMeetsSpec(t, ks, ps, ms[1..], End(ms[0]));
    }
  }

  /** The scan over the longest-first keyword list meets ScanSpec. */
  lemma ScanMeetsSpec(t: string, ks: seq<string>)
    requires ValidKeywords(ks)
    ensures ScanSpec(t, ks, Scan(t, SortByLength(ks), 0), 0)
  {
    var ps := SortByLength(ks);
    ScanFindsFirst(t, ps, 0);
    SortedPicksPreferred(t, ks);
    FindsFirstMeetsSpec(t, ks, ps, Scan(t, ps, 0), 0);
  }

  // ---------------------------------------------------------------------------
  // Turning the matches into runs
  // ---------------------------------------------------------------------------

  function Concat(runs: seq<Run>): string {
    if |runs| == 0 then "" else runs[0].text + Concat(runs[1..])
  }

  predicate Styled(runs: seq<Run>, font: string, size: int) {
    forall i :: 0 <= i < |runs| ==> runs[i].font == font && runs[i].size == size
  }

  predicate NonEmptyRuns(runs: seq<Run>) {
    forall i :: 0 <= i < |runs| ==> |runs[i].text| > 0
  }

  /** No two plain runs are adjacent: each gap between matches is one run. */
  ghost predicate NoAdjacentPlain(runs: seq<Run>) {
    forall i, j :: 0 <= i < j < |runs| && j == i + 1 ==> runs[i].bold || runs[j].bold
  }

  /**
   * The loop over the matches: the text before each match (plain), the match
   * (bold), and after the last match the remaining text (plain).
   */
  function EmitRuns(t: string, ms: seq<Match>, last: nat, font: string, size: int): (runs: seq<Run>)
    requires WellFormedMatches(t, ms, last)
    ensures Concat(runs) == t[last..]
    ensures Styled(runs, font, size)
    ensures NonEmptyRuns(runs)
    ensures NoAdjacentPlain(runs)
    ensures |runs| > 0 && !runs[0].bold ==> |ms| == 0 || last < ms[0].start
    decreases |ms|
  {
    if |ms| == 0 then
      if last < |t| then [Run(t[last..], false, font, size)] else []
    else
      var m := ms[0];
      var gap := if m.start > last then [Run(t[last..m.start], false, font, size)] else [];
      var hit := Run(t[m.start..End(m)], true, font, size);
      var rest := EmitRuns(t, ms[1..], End(m), font, size);
      EmitStep(t, last, m.start, End(m), gap, hit, rest, font, size);
      gap + [hit] + rest
  }

  /**
   * One step of the loop: a plain gap of at most one run, the bold hit and
   * the runs for the rest cover t from `last` on, with the run invariants kept.
   */
  lemma EmitStep(t: string, last: nat, s: nat, e: nat, gap: seq<Run>, hit: Run, rest: seq<Run>, font: string, size: int)
    requires last <= s < e <= |t|
    requires s > last ==> gap == [Run(t[last..s], false, font, size)]
    requires s == last ==> gap == []
    requires hit == Run(t[s..e], true, font, size)
    requires Concat(rest) == t[e..] && Styled(rest, font, size) && NonEmptyRuns(rest) && NoAdjacentPlain(rest)
    ensures var runs := gap + [hit] + rest;
      && Concat(runs) == t[last..]
      && Styled(runs, font, size)
      && NonEmptyRuns(runs)
      && NoAdjacentPlain(runs)
      && (|runs| > 0 && !runs[0].bold ==> last < s)
  {
    EmitStepConcat(t, last, s, e, gap, hit, rest, font, size);
    EmitStepShape(gap, hit, rest, font, size);
  }

  lemma EmitStepConcat(t: string, last: nat, s: nat, e: nat, gap: seq<Run>, hit: Run, rest: seq<Run>, font: string, size: int)
    requires last <= s <= e <= |t|
    requires s > last ==> gap == [Run(t[last..s], false, font, size)]
    requires s == last ==> gap == []
    requires hit.text == t[s..e]
    requires Concat(rest) == t[e..]
    ensures Concat(gap + [hit] + rest) == t[last..]
  {
    ConcatAppend(gap + [hit], rest);
    ConcatAppend(gap, [hit]);
    assert Concat([hit]) == hit.text by { assert [hit][1..] == []; }
    assert Concat(gap) == t[last..s] by {
      if s > last { assert gap[1..] == []; }
    }
    assert t[last..] == t[last..s] + t[s..e] + t[e..];
  }

  lemma EmitStepShape(gap: seq<Run>, hit: Run, rest: seq<Run>, font: string, size: int)
    requires |gap| <= 1 && Styled(gap, font, size) && NonEmptyRuns(gap)
    requires hit.bold && hit.font == font && hit.size == size && |hit.text| > 0
    requires Styled(rest, font, size) && NonEmptyRuns(rest) && NoAdjacentPlain(rest)
    ensures var runs := gap + [hit] + rest;
      Styled(runs, font, size) && NonEmptyRuns(runs) && NoAdjacentPlain(runs)
  {
    var runs := gap + [hit] + rest;
    forall i | 0 <= i < |runs| ensures runs[i].font == font && runs[i].size == size && |runs[i].text| > 0 {
      if i > |gap| { assert runs[i] == rest[i - |gap| - 1]; }
    }
    forall i, j | 0 <= i < j < |runs| && j == i + 1 ensures runs[i].bold || runs[j].bold {
      if i > |gap| { assert runs[i] == rest[i - |gap| - 1] && runs[j] == rest[j - |gap| - 1]; }
    }
  }

  lemma {:induction false} ConcatAppend(a: seq<Run>, b: seq<Run>)
    ensures Concat(a + b) == Concat(a) + Concat(b)
    decreases |a|
  {
    if |a| == 0 {
      assert a + b == b;
    } else {
      ConcatAppend(a[1..], b);
      assert (a + b)[1..] == a[1..] + b;
    }
  }

  /** One step of the loop over the matches, as a tiling-friendly decomposition. */
  lemma {:induction false} EmitUnfold(t: string, ms: seq<Match>, last: nat, font: string, size: int)
    returns (gap: seq<Run>, hit: Run, rest: seq<Run>)
    requires WellFormedMatches(t, ms, last)
    requires |ms| > 0
    ensures hit == Run(t[ms[0].start..End(ms[0])], true, font, size)
    ensures rest == EmitRuns(t, ms[1..], End(ms[0]), font, size)
    ensures ms[0].start > last ==> gap == [Run(t[last..ms[0].start], false, font, size)]
    ensures ms[0].start <= last ==> gap == []
    ensures EmitRuns(t, ms, last, font, size) == gap + ([hit] + rest)
  {
    var m := ms[0];
    gap := if m.start > last then [Run(t[last..m.start], false, font, size)] else [];
    hit := Run(t[m.start..End(m)], true, font, size);
    rest := EmitRuns(t, ms[1..], End(m), font, size);
    assert gap + [hit] + rest == gap + ([hit] + rest);
  }

  /**
   * `make_text_bold_for_skills`: the runs added to a paragraph for `text`.
   * Degenerate input (no keywords, or empty text) and text without any match
   * give one plain run holding the whole text.
   */
  function HighlightRuns(text: string, keywords: seq<string>, font: string, size: int): (runs: seq<Run>)
    requires ValidKeywords(keywords)
    ensures |runs| > 0
    ensures Concat(runs) == text
    ensures Styled(runs, font, size)
  {
    if |keywords| == 0 || |text| == 0 then [Run(text, false, font, size)]
    else
      var ms := Scan(text, SortByLength(keywords), 0);
      if |ms| == 0 then [Run(text, false, font, size)]
      else
        var runs := EmitRuns(text, ms, 0, font, size);
        assert text[0..] == text;
        runs
  }

  // ---------------------------------------------------------------------------
  // Reference specification of a highlighting, and the main theorems
  // ---------------------------------------------------------------------------

  /**
   * The runs tile t from position pos: each run is the next slice of t; a bold
   * run is exactly as long as the preferred keyword matching at its start; no
   * keyword match starts anywhere inside a plain run.
   */
  ghost predicate Tiles(t: string, ks: seq<string>, runs: seq<Run>, pos: nat)
    decreases |runs|
  {
    if |runs| == 0 then pos == |t|
    else
      var r := runs[0];
      && pos + |r.text| <= |t|
      && t[pos..pos + |r.text|] == r.text
      && (r.bold ==> Preferred(ks, t, pos).Some? && |Preferred(ks, t, pos).value| == |r.text|)
      && (!r.bold ==> forall j :: pos <= j < pos + |r.text| ==> NoKeywordAt(t, ks, j))
      && Tiles(t, ks, runs[1..], pos + |r.text|)
  }

  lemma {:induction false} EmitTiles(t: string, ks: seq<string>, ms: seq<Match>, last: nat, font: string, size: int)
    requires WellFormedMatches(t, ms, last)
    requires ScanSpec(t, ks, ms, last)
    ensures Tiles(t, ks, EmitRuns(t, ms, last, font, size), last)
    decreases |ms|
  {
    if |ms| == 0 {
      if last < |t| {
        TilesPlain(t, ks, last, |t|, [], font, size);
        assert t[last..|t|] == t[last..];
      }
    } else {
      var m := ms[0];
      var gap, hit, rest := EmitUnfold(t, ms, last, font, size);
      EmitTiles(t, ks, ms[1..], End(m), font, size);
      TilesBold(t, ks, m, rest, font, size);
      if m.start > last {
        TilesPlain(t, ks, last, m.start, [hit] + rest, font, size);
      } else {
        assert gap + ([hit] + rest) == [hit] + rest;
      }
    }
  }

  /** A bold run for a preferred match, followed by a tiling of the rest. */
  lemma {:induction false} TilesBold(t: string, ks: seq<string>, m: Match, rest: seq<Run>, font: string, size: int)
    requires End(m) <= |t|
    requires Preferred(ks, t, m.start) == Some(m.keyword)
    requires Tiles(t, ks, rest, End(m))
    ensures Tiles(t, ks, [Run(t[m.start..End(m)], true, font, size)] + rest, m.start)
  {
    var hit := Run(t[m.start..End(m)], true, font, size);
    TilesCons(t, ks, hit, rest, m.start, End(m));
  }

  /** A plain run over an unmatched stretch [from, to), followed by a tiling of the rest. */
  lemma {:induction false} TilesPlain(t: string, ks: seq<string>, from: nat, to: nat, rest: seq<Run>, font: string, size: int)
    requires from <= to <= |t|
    requires forall j :: from <= j < to ==> NoKeywordAt(t, ks, j)
    requires Tiles(t, ks, rest, to)
    ensures Tiles(t, ks, [Run(t[from..to], false, font, size)] + rest, from)
  {
    TilesCons(t, ks, Run(t[from..to], false, font, size), rest, from, to);
  }

  /** One run over t[pos..next] that meets its condition, followed by a tiling from next. */
  lemma TilesCons(t: string, ks: seq<string>, r: Run, rest: seq<Run>, pos: nat, next: nat)
    requires pos <= next <= |t| && next == pos + |r.text| && t[pos..next] == r.text
    requires r.bold ==> Preferred(ks, t, pos).Some? && |Preferred(ks, t, pos).value| == |r.text|
    requires !r.bold ==> forall j :: pos <= j < next ==> NoKeywordAt(t, ks, j)
    requires Tiles(t, ks, rest, next)
    ensures Tiles(t, ks, [r] + rest, pos)
  {
    assert ([r] + rest)[0] == r;
    assert ([r] + rest)[1..] == rest;
  }

  /** Runs that tile t cover it exactly. */
  lemma {:induction false} TilesConcat(t: string, ks: seq<string>, runs: seq<Run>, pos: nat)
    requires Tiles(t, ks, runs, pos)
    ensures pos <= |t| && Concat(runs) == t[pos..]
    decreases |runs|
  {
    if |runs| > 0 {
      var n := pos + |runs[0].text|;
      TilesHead(t, ks, runs, pos, n);
      TilesTail(t, ks, runs, pos, n);
      TilesConcat(t, ks, runs[1..], n);
      assert t[pos..] == t[pos..n] + t[n..];
    }
  }

  /**
   * The highlighter's output meets the reference specification: it tiles the
   * text, every run carries the chosen font and size, and, unless the text is
   * empty, it has no empty run and no two adjacent plain runs.
   */
  lemma HighlightMeetsSpec(text: string, keywords: seq<string>, font: string, size: int)
    requires ValidKeywords(keywords)
    ensures var runs := HighlightRuns(text, keywords, font, size);
      && Tiles(text, keywords, runs, 0)
      && Styled(runs, font, size)
      && (|text| > 0 ==> NonEmptyRuns(runs) && NoAdjacentPlain(runs))
  {
    var runs := HighlightRuns(text, keywords, font, size);
    if |keywords| == 0 {
      assert runs[1..] == [];
    } else if |text| == 0 {
      assert runs[1..] == [];
    } else {
      var ms := Scan(text, SortByLength(keywords), 0);
      ScanMeetsSpec(text, keywords);
      if |ms| == 0 {
        assert runs[1..] == [];
      } else {
        EmitTiles(text, keywords, ms, 0, font, size);
      }
    }
  }

  /** Every run of the highlighter's output is in the chosen font and size. */
  lemma HighlightStyled(text: string, keywords: seq<string>, font: string, size: int)
    requires ValidKeywords(keywords)
    ensures Styled(HighlightRuns(text, keywords, font, size), font, size)
  {
    HighlightMeetsSpec(text, keywords, font, size);
  }

  /** Round trip: concatenating the emitted runs gives back the input text. */
  lemma HighlightRoundTrip(text: string, keywords: seq<string>, font: string, size: int)
    requires ValidKeywords(keywords)
    ensures Concat(HighlightRuns(text, keywords, font, size)) == text
  {
    HighlightMeetsSpec(text, keywords, font, size);
    TilesConcat(text, keywords, HighlightRuns(text, keywords, font, size), 0);
  }

  /** Degenerate input gives exactly one plain run holding the input. */
  lemma HighlightDegenerate(text: string, keywords: seq<string>, font: string, size: int)
    requires ValidKeywords(keywords)
    requires |keywords| == 0 || |text| == 0 || forall j :: 0 <= j < |text| ==> NoKeywordAt(text, keywords, j)
    ensures HighlightRuns(text, keywords, font, size) == [Run(text, false, font, size)]
  {
    if |keywords| > 0 && |text| > 0 {
      ScanMeetsSpec(text, keywords);
    }
  }

  /**
   * The reference specification determines the runs: two tilings of the same
   * text without empty runs and without adjacent plain runs cut it identically.
   */
  lemma {:induction false} TilingUnique(t: string, ks: seq<string>, a: seq<Run>, b: seq<Run>, pos: nat)
    requires Tiles(t, ks, a, pos) && Tiles(t, ks, b, pos)
    requires NonEmptyRuns(a) && NonEmptyRuns(b)
    requires NoAdjacentPlain(a) && NoAdjacentPlain(b)
    ensures |a| == |b|
    ensures forall i :: 0 <= i < |a| ==> a[i].text == b[i].text && a[i].bold == b[i].bold
    decreases |a|
  {
    if |a| > 0 && |b| > 0 {
      HeadsAgree(t, ks, a, b, pos);
      TailCanonical(a);
      TailCanonical(b);
      var next := pos + |a[0].text|;
      TilesTail(t, ks, a, pos, next);
      TilesTail(t, ks, b, pos, next);
      TilingUnique(t, ks, a[1..], b[1..], next);
      forall i | 0 <= i < |a| ensures a[i].text == b[i].text && a[i].bold == b[i].bold {
        if i > 0 {
          assert a[i] == a[1..][i - 1] && b[i] == b[1..][i - 1];
        }
      }
    }
  }

  /** Two canonical tilings from the same position start with the same run. */
  lemma HeadsAgree(t: string, ks: seq<string>, a: seq<Run>, b: seq<Run>, pos: nat)
    requires Tiles(t, ks, a, pos) && Tiles(t, ks, b, pos)
    requires NonEmptyRuns(a) && NonEmptyRuns(b)
    requires NoAdjacentPlain(a) && NoAdjacentPlain(b)
    requires |a| > 0 && |b| > 0
    ensures a[0].text == b[0].text && a[0].bold == b[0].bold
  {
    var x, y := a[0], b[0];
    if !x.bold && !y.bold {
      if |x.text| < |y.text| {
        MatchAfterPlain(t, ks, a, pos);
        assert false;
      } else if |y.text| < |x.text| {
        MatchAfterPlain(t, ks, b, pos);
        assert false;
      }
    }
    assert |x.text| == |y.text|;
  }

  /** The runs after the first tile the rest of the text. */
  lemma TilesTail(t: string, ks: seq<string>, a: seq<Run>, pos: nat, next: nat)
    requires Tiles(t, ks, a, pos) && |a| > 0
    requires next == pos + |a[0].text|
    ensures Tiles(t, ks, a[1..], next)
  {
  }

  lemma TilesHead(t: string, ks: seq<string>, a: seq<Run>, pos: nat, next: nat)
    requires Tiles(t, ks, a, pos) && |a| > 0
    requires next == pos + |a[0].text|
    ensures next <= |t| && t[pos..next] == a[0].text
  {
  }

  /** Dropping the first run keeps a tiling canonical. */
  lemma TailCanonical(a: seq<Run>)
    requires NonEmptyRuns(a) && NoAdjacentPlain(a) && |a| > 0
    ensures NonEmptyRuns(a[1..]) && NoAdjacentPlain(a[1..])
  {
    var r := a[1..];
    forall i, j | 0 <= i < j < |r| && j == i + 1 ensures r[i].bold || r[j].bold {
      assert r[i] == a[i + 1] && r[j] == a[j + 1];
    }
  }

  /** Right after a plain run that does not reach the end of the text, a keyword matches. */
  lemma MatchAfterPlain(t: string, ks: seq<string>, a: seq<Run>, pos: nat)
    requires Tiles(t, ks, a, pos)
    requires NonEmptyRuns(a) && NoAdjacentPlain(a)
    requires |a| > 0 && !a[0].bold
    ensures pos + |a[0].text| < |t| ==> Preferred(ks, t, pos + |a[0].text|).Some?
  {
    var p := pos + |a[0].text|;
    if p < |t| {
      assert Tiles(t, ks, a[1..], p);
      assert |a| > 1;
      assert a[1].bold;
      assert a[1..][0] == a[1];
    }
  }

  /**
   * Consequently the highlighter's output is the only run sequence meeting the
   * specification for a non-empty text.
   */
  lemma HighlightIsOnlyTiling(text: string, keywords: seq<string>, font: string, size: int, other: seq<Run>)
    requires ValidKeywords(keywords)
    requires |text| > 0
    requires Tiles(text, keywords, other, 0)
    requires NonEmptyRuns(other) && NoAdjacentPlain(other) && Styled(other, font, size)
    ensures other == HighlightRuns(text, keywords, font, size)
  {
    var runs := HighlightRuns(text, keywords, font, size);
    HighlightMeetsSpec(text, keywords, font, size);
    TilingUnique(text, keywords, runs, other, 0);
    assert runs == other;
  }
}

=== FILE: layout.dfy ===
/**
 * Section assembly: the resume record becomes a sequence of document blocks
 * in a fixed order (header, contact line, summary, skills, experience,
 * education, certifications). Sections are emitted only for present fields;
 * a missing name, role or company aborts the rendering.
 */
module Layout {
  import opened Wrappers
  import opened Text
  import Highlight
  import Contacts

  type Run = Highlight.Run

  /**
   * One entry of `experience`. The role and company are required keys; the
   * other fields use the empty value for "missing or falsy".
   */
  datatype Job = Job(
    role: Option<string>,
    company: Option<string>,
    duration: string,
    overview: string,
    responsibilities: seq<string>,
    environment: seq<string>)

  /** The `education` record; empty strings stand for missing clauses. */
  datatype Education = Education(degree: string, field: string, institution: string, year: string)

  /**
   * The resume record. `education` is None unless the field is a non-empty
   * record; `skills` lists the categories of `technical_skills` in order.
   */
  datatype Resume = Resume(
    name: Option<string>,
    title: string,
    contact: Contacts.Contact,
    legacy: Contacts.Contact,
    summary: seq<string>,
    skills: seq<(string, seq<string>)>,
    experience: seq<Job>,
    education: Option<Education>,
    certifications: seq<string>)

  /** The paragraphs the generator adds, by role. */
  datatype Block =
    | Centered(runs: seq<Run>)
    | Heading(title: string)
    | Body(runs: seq<Run>)
    | Bullet(runs: seq<Run>)
    | Links(items: seq<Contacts.Inline>)

  /** Reading a required key that is absent (Python's KeyError). */
  datatype RenderError = MissingKey(key: string)

  /** The chosen font and size, and the keywords to highlight. */
  datatype Style = Style(font: string, size: int, keywords: seq<string>)

  predicate ValidStyle(st: Style) {
    Highlight.ValidKeywords(st.keywords)
  }

  const SummaryTitle: string := "Professional Summary"
  const SkillsTitle: string := "Technical Skills"
  const ExperienceTitle: string := "Professional Experience"
  const EducationTitle: string := "Education"
  const CertificationsTitle: string := "Certifications"

  const ClientLabel: string := "Client: "
  const OverviewLabel: string := "Project Overview: "
  const ResponsibilitiesLabel: string := "Responsibilities: "
  const EnvironmentLabel: string := "Environment: "
  const SkillMark: string := "• "

  function Plain(text: string, st: Style): Run {
    Highlight.Run(text, false, st.font, st.size)
  }

  function Bold(text: string, st: Style): Run {
    Highlight.Run(text, true, st.font, st.size)
  }

  /**
   * `add_section_heading`: a heading paragraph holds one run, the title
   * upper-cased, bold, in the chosen font at the body size.
   */
  function HeadingRun(title: string, st: Style): (r: Run)
    ensures r.bold && r.font == st.font && r.size == st.size
    ensures |r.text| == |title| && forall i :: 0 <= i < |title| ==> r.text[i] == Upper(title[i])
  {
    Bold(UpperString(title), st)
  }

  /** `add_bullet_points`: one bullet per item, keywords highlighted. */
  function HighlightedBullets(items: seq<string>, st: Style): (r: seq<Block>)
    requires ValidStyle(st)
    ensures |r| == |items|
    ensures forall i :: 0 <= i < |r| ==>
      r[i] == Bullet(Highlight.HighlightRuns(items[i], st.keywords, st.font, st.size))
  {
    if |items| == 0 then []
    else [Bullet(Highlight.HighlightRuns(items[0], st.keywords, st.font, st.size))]
         + HighlightedBullets(items[1..], st)
  }

  // ---------------------------------------------------------------------------
  // The sections
  // ---------------------------------------------------------------------------

  /** Name (bold, three points larger), title (always, even empty), contact line if any part. */
  function Header(name: string, r: Resume, st: Style): seq<Block> {
    var parts := Contacts.ContactParts(r.contact, r.legacy);
    [Centered([Highlight.Run(name, true, st.font, st.size + 3)]), Centered([Plain(r.title, st)])]
    + (if |parts| > 0 then [Links(Contacts.LinkLine(parts, st.font))] else [])
  }

  function SummarySection(items: seq<string>, st: Style): seq<Block>
    requires ValidStyle(st)
  {
    if |items| == 0 then [] else [Heading(SummaryTitle)] + HighlightedBullets(items, st)
  }

  /** One line per category: the bold "• category: " and the skills joined with ", ". */
  function SkillLines(skills: seq<(string, seq<string>)>, st: Style): (r: seq<Block>)
    ensures |r| == |skills|
    ensures forall i :: 0 <= i < |r| ==>
      r[i] == Body([Bold(SkillMark + skills[i].0 + ": ", st), Plain(Join(", ", skills[i].1), st)])
  {
    if |skills| == 0 then []
    else [Body([Bold(SkillMark + skills[0].0 + ": ", st), Plain(Join(", ", skills[0].1), st)])]
         + SkillLines(skills[1..], st)
  }

  function SkillsSection(skills: seq<(string, seq<string>)>, st: Style): seq<Block> {
    if |skills| == 0 then [] else [Heading(SkillsTitle)] + SkillLines(skills, st)
  }

  /** The blocks of one job; a missing role or company is an error, the role checked first. */
  function JobBlocks(job: Job, st: Style): (r: Result<seq<Block>, RenderError>)
    requires ValidStyle(st)
    ensures r.Failure? <==> job.role.None? || job.company.None?
    ensures r.Failure? ==> r.error == MissingKey(if job.role.None? then "role" else "company")
  {
    match (job.role, job.company)
    case (None, _) => Failure(MissingKey("role"))
    case (_, None) => Failure(MissingKey("company"))
    case (Some(role), Some(company)) =>
      Success(
        [RoleLine(role, st), ClientLine(company, job.duration, st)]
        + OverviewBlocks(job.overview, st)
        + ResponsibilityBlocks(job.responsibilities, st)
        + EnvironmentBlocks(job.environment, st))
  }

  /** "Role: <role>" in bold. */
  function RoleLine(role: string, st: Style): Block {
    Body([Bold("Role: " + role, st)])
  }

  /** "Client: <company>" in bold, then the duration after a tab, bold and one point smaller, when given. */
  function ClientLine(company: string, duration: string, st: Style): Block {
    Body([Bold(ClientLabel + company, st)]
         + (if duration != "" then [Highlight.Run("\t" + duration, true, st.font, st.size - 1)] else []))
  }

  /** The project overview paragraph, when given. */
  function OverviewBlocks(overview: string, st: Style): seq<Block> {
    if overview != "" then [Body([Bold(OverviewLabel, st), Plain(overview, st)])] else []
  }

  /** The "Responsibilities:" label and one highlighted bullet per item, when there are items. */
  function ResponsibilityBlocks(items: seq<string>, st: Style): seq<Block>
    requires ValidStyle(st)
  {
    if |items| > 0 then [Body([Bold(ResponsibilitiesLabel, st)])] + HighlightedBullets(items, st) else []
  }

  /** The environment list joined with ", ", when there is one. */
  function EnvironmentBlocks(env: seq<string>, st: Style): seq<Block> {
    if |env| > 0 then [Body([Bold(EnvironmentLabel, st), Plain(Join(", ", env), st)])] else []
  }

  /** The jobs in order; the first job with a missing key aborts. */
  function JobsBlocks(jobs: seq<Job>, st: Style): (r: Result<seq<Block>, RenderError>)
    requires ValidStyle(st)
    ensures r.Failure? <==> exists j :: 0 <= j < |jobs| && (jobs[j].role.None? || jobs[j].company.None?)
  {
    if |jobs| == 0 then Success([])
    else
      var first :- JobBlocks(jobs[0], st);
      var rest :- JobsBlocks(jobs[1..], st);
      Success(first + rest)
  }

  function ExperienceSection(jobs: seq<Job>, st: Style): Result<seq<Block>, RenderError>
    requires ValidStyle(st)
  {
    if |jobs| == 0 then Success([])
    else
      var blocks :- JobsBlocks(jobs, st);
      Success([Heading(ExperienceTitle)] + blocks)
  }

  /** The clauses of the education line, each only when present. */
  function EducationParts(e: Education): seq<string> {
    (if e.degree != "" then [e.degree] else [])
    + (if e.field != "" then [e.field] else [])
    + (if e.institution != "" then ["at " + e.institution] else [])
    + (if e.year != "" then ["(" + e.year + ")"] else [])
  }

  /** The heading and one paragraph, which holds a run only when some clause is present. */
  function EducationSection(e: Option<Education>, st: Style): seq<Block> {
    match e
    case None => []
    case Some(ed) =>
      var parts := EducationParts(ed);
      [Heading(EducationTitle), Body(if |parts| > 0 then [Plain(Join(", ", parts), st)] else [])]
  }

  /** Certifications are plain bullets: never highlighted, never bold. */
  function CertificationBullets(certs: seq<string>, st: Style): (r: seq<Block>)
    ensures |r| == |certs|
    ensures forall i :: 0 <= i < |r| ==> r[i] == Bullet([Plain(certs[i], st)])
  {
    if |certs| == 0 then [] else [Bullet([Plain(certs[0], st)])] + CertificationBullets(certs[1..], st)
  }

  function CertificationsSection(certs: seq<string>, st: Style): seq<Block> {
    if |certs| == 0 then [] else [Heading(CertificationsTitle)] + CertificationBullets(certs, st)
  }

  /**
   * The whole document body in its fixed order; a missing name or a job
   * without role or company gives the error instead.
   */
  function Render(r: Resume, st: Style): Result<seq<Block>, RenderError>
    requires ValidStyle(st)
  {
    match r.name
    case None => Failure(MissingKey("name"))
    case Some(name) =>
      var experience :- ExperienceSection(r.experience, st);
      Success(Header(name, r, st) + Sections(r, experience, st))
  }

  /** The sections after the header, given the rendered experience blocks. */
  function Sections(r: Resume, experience: seq<Block>, st: Style): seq<Block>
    requires ValidStyle(st)
  {
    SummarySection(r.summary, st)
    + SkillsSection(r.skills, st)
    + experience
    + EducationSection(r.education, st)
    + CertificationsSection(r.certifications, st)
  }

  // ---------------------------------------------------------------------------
  // Properties of the assembled document
  // ---------------------------------------------------------------------------

  /** Rendering fails exactly when the name, or some job's role or company, is missing. */
  lemma RenderFailsIffKeyMissing(r: Resume, st: Style)
    requires ValidStyle(st)
    ensures Render(r, st).Failure? <==>
      r.name.None? || exists j :: 0 <= j < |r.experience| && (r.experience[j].role.None? || r.experience[j].company.None?)
    ensures r.name.None? ==> Render(r, st) == Failure(MissingKey("name"))
  {
    if r.name.Some? {
      assert Render(r, st).Failure? <==> ExperienceSection(r.experience, st).Failure?;
      assert ExperienceSection(r.experience, st).Failure? <==> JobsBlocks(r.experience, st).Failure?;
    }
  }

  /** A successful render is the header followed by the sections. */
  lemma RenderUnfold(r: Resume, st: Style)
    requires ValidStyle(st)
    requires Render(r, st).Success?
    ensures r.name.Some? && ExperienceSection(r.experience, st).Success?
    ensures Render(r, st).value == Header(r.name.value, r, st) + Sections(r, ExperienceSection(r.experience, st).value, st)
  {
  }

  /** The name comes first, then the title (even when empty), then the contact line when there are parts. */
  lemma RenderHeader(r: Resume, st: Style)
    requires ValidStyle(st)
    requires Render(r, st).Success?
    ensures var blocks := Render(r, st).value;
      var parts := Contacts.ContactParts(r.contact, r.legacy);
      && |blocks| >= 2
      && blocks[0] == Centered([Highlight.Run(r.name.value, true, st.font, st.size + 3)])
      && blocks[1] == Centered([Plain(r.title, st)])
      && (|parts| > 0 ==> blocks[2] == Links(Contacts.LinkLine(parts, st.font)))
      && (|parts| == 0 ==> |blocks| == 2 || !blocks[2].Links?)
  {
    RenderUnfold(r, st);
    var exp := ExperienceSection(r.experience, st).value;
    SectionsNoLinks(r, exp, st);
    HeaderThen(r.name.value, r, st, Sections(r, exp, st));
  }

  /** The header's blocks stay in front of whatever follows, and no contact line follows it. */
  lemma HeaderThen(name: string, r: Resume, st: Style, tail: seq<Block>)
    requires NoLinks(tail)
    ensures var blocks := Header(name, r, st) + tail;
      var parts := Contacts.ContactParts(r.contact, r.legacy);
      && |blocks| >= 2
      && blocks[0] == Centered([Highlight.Run(name, true, st.font, st.size + 3)])
      && blocks[1] == Centered([Plain(r.title, st)])
      && (|parts| > 0 ==> blocks[2] == Links(Contacts.LinkLine(parts, st.font)))
      && (|parts| == 0 ==> |blocks| == 2 || !blocks[2].Links?)
  {
    var h := Header(name, r, st);
    if |Contacts.ContactParts(r.contact, r.legacy)| == 0 && |tail| > 0 {
      assert (h + tail)[2] == tail[0];
    }
  }

  /** No contact line among the blocks. */
  predicate NoLinks(bs: seq<Block>) {
    forall i :: 0 <= i < |bs| ==> !bs[i].Links?
  }

  lemma NoLinksAppend(a: seq<Block>, b: seq<Block>)
    requires NoLinks(a) && NoLinks(b)
    ensures NoLinks(a + b)
  {
    forall i | 0 <= i < |a + b| ensures !(a + b)[i].Links? {
      if i >= |a| { assert (a + b)[i] == b[i - |a|]; }
    }
  }

  /** The sections after the header never hold a contact line. */
  lemma SectionsNoLinks(r: Resume, exp: seq<Block>, st: Style)
    requires ValidStyle(st)
    requires ExperienceSection(r.experience, st) == Success(exp)
    ensures NoLinks(Sections(r, exp, st))
  {
    var su := SummarySection(r.summary, st);
    var sk := SkillsSection(r.skills, st);
    var ed := EducationSection(r.education, st);
    var ce := CertificationsSection(r.certifications, st);
    assert Sections(r, exp, st) == su + sk + exp + ed + ce;
    ExperienceNoLinks(r.experience, st);
    TitledNoLinks(SummaryTitle, if |r.summary| > 0 then HighlightedBullets(r.summary, st) else []);
    TitledNoLinks(SkillsTitle, SkillLines(r.skills, st));
    TitledNoLinks(CertificationsTitle, CertificationBullets(r.certifications, st));
    assert NoLinks(su) && NoLinks(sk) && NoLinks(ce);
    assert NoLinks(ed);
    NoLinksAppend(su, sk);
    NoLinksAppend(su + sk, exp);
    NoLinksAppend(su + sk + exp, ed);
    NoLinksAppend(su + sk + exp + ed, ce);
  }

  /** A heading followed by blocks of one kind other than the contact line. */
  lemma TitledNoLinks(title: string, bs: seq<Block>)
    requires forall i :: 0 <= i < |bs| ==> bs[i].Body? || bs[i].Bullet?
    ensures NoLinks(bs) && NoLinks([Heading(title)] + bs)
  {
    NoLinksAppend([Heading(title)], bs);
  }

  lemma ExperienceNoLinks(jobs: seq<Job>, st: Style)
    requires ValidStyle(st)
    ensures ExperienceSection(jobs, st).Success? ==>
      NoLinks(ExperienceSection(jobs, st).value)
      && forall i :: 0 <= i < |ExperienceSection(jobs, st).value| ==> !ExperienceSection(jobs, st).value[i].Centered?
  {
    if |jobs| > 0 && ExperienceSection(jobs, st).Success? {
      JobsBlocksShape(jobs, st);
      var bs := JobsBlocks(jobs, st).value;
      var ex := [Heading(ExperienceTitle)] + bs;
      assert ExperienceSection(jobs, st).value == ex;
      forall i | 0 <= i < |ex| ensures !ex[i].Links? && !ex[i].Centered? {
        if i > 0 { assert ex[i] == bs[i - 1]; }
      }
    }
  }

  /** Body paragraphs and bullets only: no centred line, heading or contact line. */
  predicate Paragraphs(bs: seq<Block>) {
    forall i :: 0 <= i < |bs| ==> bs[i].Body? || bs[i].Bullet?
  }

  lemma ParagraphsAppend(a: seq<Block>, b: seq<Block>)
    requires Paragraphs(a) && Paragraphs(b)
    ensures Paragraphs(a + b)
  {
    forall i | 0 <= i < |a + b| ensures (a + b)[i].Body? || (a + b)[i].Bullet? {
      if i >= |a| { assert (a + b)[i] == b[i - |a|]; }
    }
  }

  /** Job blocks are body paragraphs and bullets only. */
  lemma {:induction false} JobsBlocksShape(jobs: seq<Job>, st: Style)
    requires ValidStyle(st)
    ensures JobsBlocks(jobs, st).Success? ==> Paragraphs(JobsBlocks(jobs, st).value)
    decreases |jobs|
  {
    if |jobs| > 0 && JobsBlocks(jobs, st).Success? {
      JobShape(jobs[0], st);
      JobsBlocksShape(jobs[1..], st);
      var first := JobBlocks(jobs[0], st).value;
      var rest := JobsBlocks(jobs[1..], st).value;
      assert JobsBlocks(jobs, st).value == first + rest;
      ParagraphsAppend(first, rest);
    }
  }

  lemma JobShape(job: Job, st: Style)
    requires ValidStyle(st)
    requires JobBlocks(job, st).Success?
    ensures Paragraphs(JobBlocks(job, st).value)
  {
    var head := [RoleLine(job.role.value, st), ClientLine(job.company.value, job.duration, st)];
    var ov := OverviewBlocks(job.overview, st);
    var resp := ResponsibilityBlocks(job.responsibilities, st);
    var env := EnvironmentBlocks(job.environment, st);
    JobUnfold(job, st);
    assert Paragraphs(head) by {
      assert head[0].Body? && head[1].Body?;
    }
    ResponsibilitiesShape(job.responsibilities, st);
    ParagraphsAppend(head, ov);
    ParagraphsAppend(head + ov, resp);
    ParagraphsAppend(head + ov + resp, env);
  }

  lemma ResponsibilitiesShape(items: seq<string>, st: Style)
    requires ValidStyle(st)
    ensures Paragraphs(ResponsibilityBlocks(items, st))
  {
    if |items| > 0 {
      var bs := HighlightedBullets(items, st);
      assert Paragraphs(bs) by {
        forall i | 0 <= i < |bs| ensures bs[i].Body? || bs[i].Bullet? {
          assert bs[i] == Bullet(Highlight.HighlightRuns(items[i], st.keywords, st.font, st.size));
        }
      }
      ParagraphsAppend([Body([Bold(ResponsibilitiesLabel, st)])], bs);
    }
  }

  /** The texts of the section headings, in document order. */
  function HeadingTexts(bs: seq<Block>): seq<string> {
    if |bs| == 0 then [] else (if bs[0].Heading? then [bs[0].title] else []) + HeadingTexts(bs[1..])
  }

  lemma {:induction false} HeadingTextsAppend(a: seq<Block>, b: seq<Block>)
    ensures HeadingTexts(a + b) == HeadingTexts(a) + HeadingTexts(b)
    decreases |a|
  {
    if |a| == 0 {
      assert a + b == b;
    } else {
      var ab := a + b;
      assert ab[0] == a[0];
      assert ab[1..] == a[1..] + b;
      HeadingTextsAppend(a[1..], b);
    }
  }

  lemma {:induction false} NoHeadingTexts(bs: seq<Block>)
    requires forall i :: 0 <= i < |bs| ==> !bs[i].Heading?
    ensures HeadingTexts(bs) == []
    decreases |bs|
  {
    if |bs| > 0 {
      NoHeadingTexts(bs[1..]);
    }
  }

  lemma HeaderNoHeadings(name: string, r: Resume, st: Style)
    ensures HeadingTexts(Header(name, r, st)) == []
  {
    var h := Header(name, r, st);
    forall i | 0 <= i < |h| ensures !h[i].Heading? {
      assert h[i].Centered? || h[i].Links?;
    }
    NoHeadingTexts(h);
  }

  /** The headings a resume should get: one per present section, in the fixed order. */
  function ExpectedHeadings(r: Resume): seq<string> {
    (if |r.summary| > 0 then [SummaryTitle] else [])
    + (if |r.skills| > 0 then [SkillsTitle] else [])
    + (if |r.experience| > 0 then [ExperienceTitle] else [])
    + (if r.education.Some? then [EducationTitle] else [])
    + (if |r.certifications| > 0 then [CertificationsTitle] else [])
  }

  /**
   * Sections appear in the fixed order summary, skills, experience, education,
   * certifications, each exactly when its field is present, under its
   * heading (whose run, `HeadingRun`, shows the title upper-cased).
   */
  lemma RenderHeadings(r: Resume, st: Style)
    requires ValidStyle(st)
    requires Render(r, st).Success?
    ensures HeadingTexts(Render(r, st).value) == ExpectedHeadings(r)
  {
    var h := Header(r.name.value, r, st);
    var ex := ExperienceSection(r.experience, st).value;
    RenderUnfold(r, st);
    HeadingTextsAppend(h, Sections(r, ex, st));
    HeaderNoHeadings(r.name.value, r, st);
    SectionsHeadings(r, st);
  }

  lemma SectionsHeadings(r: Resume, st: Style)
    requires ValidStyle(st)
    requires ExperienceSection(r.experience, st).Success?
    ensures HeadingTexts(Sections(r, ExperienceSection(r.experience, st).value, st)) == ExpectedHeadings(r)
  {
    var ex := ExperienceSection(r.experience, st).value;
    HeadingTextsOfFive(SummarySection(r.summary, st), SkillsSection(r.skills, st), ex,
                       EducationSection(r.education, st), CertificationsSection(r.certifications, st));
    SectionHeadings(r, st);
  }

  lemma HeadingTextsOfFive(a: seq<Block>, b: seq<Block>, c: seq<Block>, d: seq<Block>, e: seq<Block>)
    ensures HeadingTexts(a + b + c + d + e) == HeadingTexts(a) + HeadingTexts(b) + HeadingTexts(c) + HeadingTexts(d) + HeadingTexts(e)
  {
    HeadingTextsAppend(a, b);
    HeadingTextsAppend(a + b, c);
    HeadingTextsAppend(a + b + c, d);
    HeadingTextsAppend(a + b + c + d, e);
  }

  lemma SectionHeadings(r: Resume, st: Style)
    requires ValidStyle(st)
    requires ExperienceSection(r.experience, st).Success?
    ensures HeadingTexts(SummarySection(r.summary, st)) == (if |r.summary| > 0 then [SummaryTitle] else [])
    ensures HeadingTexts(SkillsSection(r.skills, st)) == (if |r.skills| > 0 then [SkillsTitle] else [])
    ensures HeadingTexts(ExperienceSection(r.experience, st).value) ==
            (if |r.experience| > 0 then [ExperienceTitle] else [])
    ensures HeadingTexts(EducationSection(r.education, st)) == (if r.education.Some? then [EducationTitle] else [])
    ensures HeadingTexts(CertificationsSection(r.certifications, st)) ==
            (if |r.certifications| > 0 then [CertificationsTitle] else [])
  {
    if |r.summary| > 0 {
      TitledHeadings(SummaryTitle, HighlightedBullets(r.summary, st));
    }
    if |r.skills| > 0 {
      TitledHeadings(SkillsTitle, SkillLines(r.skills, st));
    }
    ExperienceHeadings(r.experience, st);
    EducationHeadings(r.education, st);
    if |r.certifications| > 0 {
      TitledHeadings(CertificationsTitle, CertificationBullets(r.certifications, st));
    }
  }

  lemma ExperienceHeadings(jobs: seq<Job>, st: Style)
    requires ValidStyle(st)
    requires ExperienceSection(jobs, st).Success?
    ensures HeadingTexts(ExperienceSection(jobs, st).value) == (if |jobs| > 0 then [ExperienceTitle] else [])
  {
    if |jobs| > 0 {
      JobsBlocksShape(jobs, st);
      TitledHeadings(ExperienceTitle, JobsBlocks(jobs, st).value);
    }
  }

  lemma EducationHeadings(e: Option<Education>, st: Style)
    ensures HeadingTexts(EducationSection(e, st)) == (if e.Some? then [EducationTitle] else [])
  {
    if e.Some? {
      var bs := EducationSection(e, st);
      TitledHeadings(EducationTitle, bs[1..]);
      assert bs == [Heading(EducationTitle)] + bs[1..];
    }
  }

  /** A section is its heading followed by blocks that are not headings. */
  lemma TitledHeadings(title: string, bs: seq<Block>)
    requires forall i :: 0 <= i < |bs| ==> !bs[i].Heading?
    ensures HeadingTexts([Heading(title)] + bs) == [title]
  {
    NoHeadingTexts(bs);
    assert ([Heading(title)] + bs)[1..] == bs;
  }

  /** A resume holding only a name renders as just the name and the (empty) title. */
  lemma NameOnly(name: string, st: Style)
    requires ValidStyle(st)
    ensures var empty := Contacts.Contact("", "", "", "");
      Render(Resume(Some(name), "", empty, empty, [], [], [], None, []), st) ==
      Success([Centered([Highlight.Run(name, true, st.font, st.size + 3)]), Centered([Plain("", st)])])
  {
    var empty := Contacts.Contact("", "", "", "");
    var r := Resume(Some(name), "", empty, empty, [], [], [], None, []);
    assert Contacts.StructuredParts(empty) == [];
    assert Contacts.ContactParts(empty, empty) == [];
    assert Sections(r, [], st) == [];
    assert Header(name, r, st) == [Centered([Highlight.Run(name, true, st.font, st.size + 3)]), Centered([Plain("", st)])];
  }

  // ---------------------------------------------------------------------------
  // Fonts and sizes
  // ---------------------------------------------------------------------------

  /** A body paragraph laid out as a client line with a duration: the client run, then the duration. */
  predicate ClientWithDuration(runs: seq<Run>) {
    |runs| == 2 && StartsWith(runs[0].text, ClientLabel)
  }

  /**
   * The size of run i of a body paragraph: one point below the body size for
   * the duration of a client line, the body size for every other run.
   */
  function BodyRunSize(runs: seq<Run>, i: int, st: Style): int {
    if i == 1 && ClientWithDuration(runs) then st.size - 1 else st.size
  }

  /** Every run in the chosen font at the body size. */
  predicate BodySized(runs: seq<Run>, st: Style) {
    forall i :: 0 <= i < |runs| ==> runs[i].font == st.font && runs[i].size == st.size
  }

  /**
   * The fonts and sizes of one block: headings, bullets and centred lines at
   * the body size, body paragraphs at the body size except a client line's
   * duration, contact links and separators in the chosen font. The name line,
   * three points larger, is stated on its own.
   */
  predicate BlockStyled(b: Block, st: Style) {
    match b
    case Centered(runs) => BodySized(runs, st)
    // A heading's run is built by HeadingRun, whose contract fixes its font and size.
    case Heading(_) => true
    case Body(runs) => forall i :: 0 <= i < |runs| ==> runs[i].font == st.font && runs[i].size == BodyRunSize(runs, i, st)
    case Bullet(runs) => BodySized(runs, st)
    case Links(items) => forall i :: 0 <= i < |items| ==> items[i].font == st.font
  }

  predicate AllStyled(bs: seq<Block>, st: Style) {
    forall i :: 0 <= i < |bs| ==> BlockStyled(bs[i], st)
  }

  lemma StyledAppend(a: seq<Block>, b: seq<Block>, st: Style)
    requires AllStyled(a, st) && AllStyled(b, st)
    ensures AllStyled(a + b, st)
  {
    forall i | 0 <= i < |a + b| ensures BlockStyled((a + b)[i], st) {
      if i >= |a| { assert (a + b)[i] == b[i - |a|]; }
    }
  }

  /** A two-run body paragraph whose first run does not open with the client label keeps the body size. */
  lemma NotClientLine(lead: string, rest: string, second: Run, st: Style)
    requires |lead| > 0 && lead[0] != ClientLabel[0]
    requires second.font == st.font && second.size == st.size
    ensures BlockStyled(Body([Bold(lead + rest, st), second]), st)
  {
    var runs := [Bold(lead + rest, st), second];
    assert runs[0].text[0] == lead[0];
    assert !ClientWithDuration(runs);
  }

  /** Highlighted bullets are at the body size in the chosen font. */
  lemma BulletsStyled(items: seq<string>, st: Style)
    requires ValidStyle(st)
    ensures AllStyled(HighlightedBullets(items, st), st)
  {
    var bs := HighlightedBullets(items, st);
    forall i | 0 <= i < |bs| ensures BlockStyled(bs[i], st) {
      var runs := Highlight.HighlightRuns(items[i], st.keywords, st.font, st.size);
      Highlight.HighlightStyled(items[i], st.keywords, st.font, st.size);
      assert bs[i] == Bullet(runs);
    }
  }

  /** The name line is bold and three points larger; the title and contact line follow in the chosen font. */
  lemma HeaderStyled(name: string, r: Resume, st: Style)
    ensures var h := Header(name, r, st);
      && h[0] == Centered([Highlight.Run(name, true, st.font, st.size + 3)])
      && AllStyled(h[1..], st)
  {
    var parts := Contacts.ContactParts(r.contact, r.legacy);
    if |parts| > 0 {
      var line := Contacts.LinkLine(parts, st.font);
      forall i | 0 <= i < |line| ensures line[i].font == st.font {
        if i % 2 == 0 { assert line[i] == Contacts.LinkOf(parts[i / 2], st.font); }
      }
    }
  }

  lemma {:induction false} JobsStyled(jobs: seq<Job>, st: Style)
    requires ValidStyle(st)
    requires JobsBlocks(jobs, st).Success?
    ensures AllStyled(JobsBlocks(jobs, st).value, st)
    decreases |jobs|
  {
    if |jobs| > 0 {
      JobStyled(jobs[0], st);
      JobsStyled(jobs[1..], st);
      var first := JobBlocks(jobs[0], st).value;
      var rest := JobsBlocks(jobs[1..], st).value;
      assert JobsBlocks(jobs, st).value == first + rest;
      StyledAppend(first, rest, st);
    }
  }

  /**
   * A job's runs are at the body size except the duration, and its client
   * line carries the duration one point smaller exactly when one is given.
   */
  lemma JobStyled(job: Job, st: Style)
    requires ValidStyle(st)
    requires JobBlocks(job, st).Success?
    ensures AllStyled(JobBlocks(job, st).value, st)
    ensures var client := JobBlocks(job, st).value[1];
      client.Body? && (|client.runs| == 2 <==> job.duration != "")
      && (job.duration != "" ==> client.runs[1].size == st.size - 1)
  {
    var head := [RoleLine(job.role.value, st), ClientLine(job.company.value, job.duration, st)];
    var ov := OverviewBlocks(job.overview, st);
    var resp := ResponsibilityBlocks(job.responsibilities, st);
    var env := EnvironmentBlocks(job.environment, st);
    JobUnfold(job, st);
    HeadStyled(job.role.value, job.company.value, job.duration, st);
    ResponsibilitiesStyled(job.responsibilities, st);
    if job.overview != "" {
      NotClientLine(OverviewLabel, "", Plain(job.overview, st), st);
      assert OverviewLabel + "" == OverviewLabel;
    }
    if |job.environment| > 0 {
      NotClientLine(EnvironmentLabel, "", Plain(Join(", ", job.environment), st), st);
      assert EnvironmentLabel + "" == EnvironmentLabel;
    }
    assert AllStyled(ov, st) && AllStyled(env, st);
    StyledAppend(head, ov, st);
    StyledAppend(head + ov, resp, st);
    StyledAppend(head + ov + resp, env, st);
    assert JobBlocks(job, st).value[1] == head[1];
  }

  /** A job with role and company is its two head lines followed by the optional parts. */
  lemma JobUnfold(job: Job, st: Style)
    requires ValidStyle(st)
    requires JobBlocks(job, st).Success?
    ensures job.role.Some? && job.company.Some?
    ensures JobBlocks(job, st).value ==
      [RoleLine(job.role.value, st), ClientLine(job.company.value, job.duration, st)]
      + OverviewBlocks(job.overview, st)
      + ResponsibilityBlocks(job.responsibilities, st)
      + EnvironmentBlocks(job.environment, st)
  {
  }

  /** The role line is at the body size; the client line's duration one point smaller. */
  lemma HeadStyled(role: string, company: string, duration: string, st: Style)
    ensures AllStyled([RoleLine(role, st), ClientLine(company, duration, st)], st)
  {
    var c := ClientLine(company, duration, st);
    assert c.runs[0].text == ClientLabel + company;
    assert c.runs[0].text[..|ClientLabel|] == ClientLabel;
    assert BlockStyled(c, st) by {
      forall i | 0 <= i < |c.runs| ensures c.runs[i].font == st.font && c.runs[i].size == BodyRunSize(c.runs, i, st) {
        if i > 0 { assert c.runs[i] == Highlight.Run("\t" + duration, true, st.font, st.size - 1); }
      }
    }
    assert BlockStyled(RoleLine(role, st), st);
  }

  lemma ResponsibilitiesStyled(items: seq<string>, st: Style)
    requires ValidStyle(st)
    ensures AllStyled(ResponsibilityBlocks(items, st), st)
  {
    if |items| > 0 {
      BulletsStyled(items, st);
      StyledAppend([Body([Bold(ResponsibilitiesLabel, st)])], HighlightedBullets(items, st), st);
    }
  }

  /**
   * Every run of the document is in the chosen font: the name three points
   * above the body size, each job's duration one point below it, every
   * other run at the body size.
   */
  lemma RenderStyled(r: Resume, st: Style)
    requires ValidStyle(st)
    requires Render(r, st).Success?
    ensures var bs := Render(r, st).value;
      && |bs| > 0
      && bs[0] == Centered([Highlight.Run(r.name.value, true, st.font, st.size + 3)])
      && AllStyled(bs[1..], st)
  {
    var h := Header(r.name.value, r, st);
    var ex := ExperienceSection(r.experience, st).value;
    var s := Sections(r, ex, st);
    RenderUnfold(r, st);
    HeaderStyled(r.name.value, r, st);
    SectionsStyled(r, ex, st);
    StyledAfterHead(h, s, st);
  }

  /** A styled tail after the head's first block stays styled when more styled blocks follow. */
  lemma StyledAfterHead(h: seq<Block>, s: seq<Block>, st: Style)
    requires |h| > 0 && AllStyled(h[1..], st) && AllStyled(s, st)
    ensures (h + s)[0] == h[0] && AllStyled((h + s)[1..], st)
  {
    StyledAppend(h[1..], s, st);
    assert (h + s)[1..] == h[1..] + s;
  }

  lemma SectionsStyled(r: Resume, ex: seq<Block>, st: Style)
    requires ValidStyle(st)
    requires ExperienceSection(r.experience, st) == Success(ex)
    ensures AllStyled(Sections(r, ex, st), st)
  {
    var su := SummarySection(r.summary, st);
    var sk := SkillsSection(r.skills, st);
    var ed := EducationSection(r.education, st);
    var ce := CertificationsSection(r.certifications, st);
    assert Sections(r, ex, st) == su + sk + ex + ed + ce;
    SummaryStyled(r.summary, st);
    SkillsStyled(r.skills, st);
    ExperienceStyled(r.experience, st);
    EducationStyled(r.education, st);
    CertificationsStyled(r.certifications, st);
    StyledAppend(su, sk, st);
    StyledAppend(su + sk, ex, st);
    StyledAppend(su + sk + ex, ed, st);
    StyledAppend(su + sk + ex + ed, ce, st);
  }

  lemma SkillsStyled(skills: seq<(string, seq<string>)>, st: Style)
    ensures AllStyled(SkillsSection(skills, st), st)
  {
    if |skills| > 0 {
      var lines := SkillLines(skills, st);
      forall i | 0 <= i < |lines| ensures BlockStyled(lines[i], st) {
        NotClientLine(SkillMark, skills[i].0 + ": ", Plain(Join(", ", skills[i].1), st), st);
        assert SkillMark + (skills[i].0 + ": ") == SkillMark + skills[i].0 + ": ";
      }
      StyledAppend([Heading(SkillsTitle)], lines, st);
    }
  }

  lemma EducationStyled(e: Option<Education>, st: Style)
    ensures AllStyled(EducationSection(e, st), st)
  {
  }

  lemma CertificationsStyled(certs: seq<string>, st: Style)
    ensures AllStyled(CertificationsSection(certs, st), st)
  {
    if |certs| > 0 {
      StyledAppend([Heading(CertificationsTitle)], CertificationBullets(certs, st), st);
    }
  }

  lemma SummaryStyled(items: seq<string>, st: Style)
    requires ValidStyle(st)
    ensures AllStyled(SummarySection(items, st), st)
  {
    if |items| > 0 {
      BulletsStyled(items, st);
      StyledAppend([Heading(SummaryTitle)], HighlightedBullets(items, st), st);
    }
  }

  lemma ExperienceStyled(jobs: seq<Job>, st: Style)
    requires ValidStyle(st)
    requires ExperienceSection(jobs, st).Success?
    ensures AllStyled(ExperienceSection(jobs, st).value, st)
  {
    if |jobs| > 0 {
      JobsStyled(jobs, st);
      StyledAppend([Heading(ExperienceTitle)], JobsBlocks(jobs, st).value, st);
    }
  }

  // ---------------------------------------------------------------------------
  // Bullets and the education line
  // ---------------------------------------------------------------------------

  /** Each highlighted bullet reads back as its item: highlighting only changes formatting. */
  lemma BulletsRoundTrip(items: seq<string>, st: Style)
    requires ValidStyle(st)
    ensures forall i :: 0 <= i < |items| ==>
      Highlight.Concat(HighlightedBullets(items, st)[i].runs) == items[i]
  {
    forall i | 0 <= i < |items|
      ensures Highlight.Concat(HighlightedBullets(items, st)[i].runs) == items[i]
    {
      Highlight.HighlightRoundTrip(items[i], st.keywords, st.font, st.size);
    }
  }

  /** Certification bullets are one plain run each, whatever the keywords. */
  lemma CertificationsNeverBold(certs: seq<string>, st: Style)
    ensures forall i :: 0 <= i < |CertificationBullets(certs, st)| ==>
      var runs := CertificationBullets(certs, st)[i].runs;
      |runs| == 1 && !runs[0].bold && runs[0].text == certs[i]
  {
  }

  /** With every clause present, the education line reads "degree, field, at institution, (year)". */
  lemma EducationFullLine(e: Education)
    requires e.degree != "" && e.field != "" && e.institution != "" && e.year != ""
    ensures Join(", ", EducationParts(e)) ==
      e.degree + ", " + e.field + ", " + "at " + e.institution + ", " + "(" + e.year + ")"
  {
    var parts := EducationParts(e);
    var a, b, c, d := e.degree, e.field, "at " + e.institution, "(" + e.year + ")";
    assert parts == [a, b, c, d];
    assert parts[1..] == [b, c, d];
    assert parts[1..][1..] == [c, d];
    assert parts[1..][1..][1..] == [d];
    assert Join(", ", [c, d]) == c + ", " + d;
    assert Join(", ", [b, c, d]) == b + ", " + (c + ", " + d);
  }

  /** The texts of the clauses whose field is non-empty, in order. */
  function Present(clauses: seq<(string, string)>): seq<string> {
    if |clauses| == 0 then []
    else (if clauses[0].0 != "" then [clauses[0].1] else []) + Present(clauses[1..])
  }

  /**
   * For every presence pattern: the education line is degree, field,
   * "at institution" and "(year)" in this order, each exactly when its field
   * is non-empty, joined with ", ".
   */
  lemma EducationLine(e: Education)
    ensures EducationParts(e) ==
      Present([(e.degree, e.degree), (e.field, e.field), (e.institution, "at " + e.institution), (e.year, "(" + e.year + ")")])
  {
    var cs := [(e.degree, e.degree), (e.field, e.field), (e.institution, "at " + e.institution), (e.year, "(" + e.year + ")")];
    var c1 := cs[1..];
    var c2 := c1[1..];
    var c3 := c2[1..];
    assert c3[1..] == [];
    assert Present(c3) == (if e.year != "" then ["(" + e.year + ")"] else []);
    assert Present(c2) == (if e.institution != "" then ["at " + e.institution] else []) + Present(c3);
    assert Present(c1) == (if e.field != "" then [e.field] else []) + Present(c2);
    assert Present(cs) == (if e.degree != "" then [e.degree] else []) + Present(c1);
  }

  /** Present never yields an empty text when every present clause has a non-empty text. */
  lemma {:induction false} PresentNonEmpty(clauses: seq<(string, string)>)
    requires forall k :: 0 <= k < |clauses| && clauses[k].0 != "" ==> clauses[k].1 != ""
    ensures forall k :: 0 <= k < |Present(clauses)| ==> Present(clauses)[k] != ""
  {
    if |clauses| > 0 {
      PresentNonEmpty(clauses[1..]);
      var head := if clauses[0].0 != "" then [clauses[0].1] else [];
      assert Present(clauses) == head + Present(clauses[1..]);
    }
  }

  /**
   * Every clause of the education line is non-empty, whatever is missing: a
   * missing field leaves no empty clause and hence no doubled ", " separator.
   */
  lemma EducationPartsNonEmpty(e: Education)
    ensures forall k :: 0 <= k < |EducationParts(e)| ==> EducationParts(e)[k] != ""
  {
    EducationLine(e);
    var cs := [(e.degree, e.degree), (e.field, e.field), (e.institution, "at " + e.institution), (e.year, "(" + e.year + ")")];
    assert ("at " + e.institution)[0] == 'a';
    assert ("(" + e.year + ")")[0] == '(';
    PresentNonEmpty(cs);
  }

  /** With only degree and institution present, the line reads "degree, at institution". */
  lemma EducationSkipsMissing(e: Education)
    requires e.degree != "" && e.field == "" && e.institution != "" && e.year == ""
    ensures Join(", ", EducationParts(e)) == e.degree + ", " + "at " + e.institution
  {
    var parts := EducationParts(e);
    assert parts == [e.degree, "at " + e.institution];
    assert parts[1..] == ["at " + e.institution];
  }

  /** An education record with no known clause still gets its heading and an empty paragraph. */
  lemma EducationWithoutClauses(e: Education, st: Style)
    requires e.degree == "" && e.field == "" && e.institution == "" && e.year == ""
    ensures EducationSection(Some(e), st) == [Heading(EducationTitle), Body([])]
  {
    assert EducationParts(e) == [];
  }
}

=== FILE: text.dfy ===
/**
 * Character classes and small string operations shared by the highlighter,
 * the filename sanitiser and the section assembler.
 *
 * Only ASCII is modelled: a word character is [A-Za-z0-9_], whitespace is the
 * ASCII part of Python's `str.isspace` (which `\s` and `str.strip` both use),
 * and case conversion touches only A-Z / a-z.
 */
module Text {

  /** `\w` restricted to ASCII. */
  predicate IsWord(c: char) {
    ('a' <= c <= 'z') || ('A' <= c <= 'Z') || ('0' <= c <= '9') || c == '_'
  }

  /** `\s` / `str.isspace()` restricted to ASCII. */
  predicate IsSpace(c: char) {
    c == ' ' || ('\t' <= c <= '\r') || ('\U{1C}' <= c <= '\U{1F}')
  }

  function Lower(c: char): (d: char)
    ensures 'A' <= c <= 'Z' ==> 'a' <= d <= 'z' && d as int == c as int + 32
    ensures !('A' <= c <= 'Z') ==> d == c
  {
    if 'A' <= c <= 'Z' then (c as int + 32) as char else c
  }

  function Upper(c: char): (d: char)
    ensures 'a' <= c <= 'z' ==> 'A' <= d <= 'Z' && d as int == c as int - 32
    ensures !('a' <= c <= 'z') ==> d == c
  {
    if 'a' <= c <= 'z' then (c as int - 32) as char else c
  }

  /** `str.upper()` on ASCII text. */
  function UpperString(s: string): (r: string)
    ensures |r| == |s|
    ensures forall i :: 0 <= i < |s| ==> r[i] == Upper(s[i])
  {
    if |s| == 0 then [] else [Upper(s[0])] + UpperString(s[1..])
  }

  /** Equality of two strings under ASCII case folding (`re.IGNORECASE` on a literal). */
  predicate EqualsIgnoreCase(a: string, b: string) {
    |a| == |b| && forall i :: 0 <= i < |a| ==> Lower(a[i]) == Lower(b[i])
  }

  predicate StartsWith(s: string, prefix: string) {
    |prefix| <= |s| && s[..|prefix|] == prefix
  }

  /** `str.replace(' ', '_')`. */
  function ReplaceSpaces(s: string): (r: string)
    ensures |r| == |s|
    ensures forall i :: 0 <= i < |s| ==> r[i] == (if s[i] == ' ' then '_' else s[i])
  {
    if |s| == 0 then [] else [if s[0] == ' ' then '_' else s[0]] + ReplaceSpaces(s[1..])
  }

  /** `sep.join(parts)`. */
  function Join(sep: string, parts: seq<string>): (r: string)
  {
    if |parts| == 0 then ""
    else if |parts| == 1 then parts[0]
    else parts[0] + sep + Join(sep, parts[1..])
  }

  /** The joined string has every part and every separator: its length is their sum. */
  lemma {:induction false} JoinLength(sep: string, parts: seq<string>)
    ensures |parts| > 0 ==> |Join(sep, parts)| == TotalLength(parts) + (|parts| - 1) * |sep|
    decreases |parts|
  {
    if |parts| > 1 {
      JoinLength(sep, parts[1..]);
    }
  }

  function TotalLength(parts: seq<string>): nat {
    if |parts| == 0 then 0 else |parts[0]| + TotalLength(parts[1..])
  }

  /** Drop leading whitespace. */
  function TrimStart(s: string): (r: string)
    ensures |r| <= |s| && r == s[|s| - |r|..]
    ensures forall i :: 0 <= i < |s| - |r| ==> IsSpace(s[i])
    ensures |r| > 0 ==> !IsSpace(r[0])
  {
    if |s| > 0 && IsSpace(s[0]) then TrimStart(s[1..]) else s
  }

  /** Drop trailing whitespace. */
  function TrimEnd(s: string): (r: string)
    ensures |r| <= |s| && r == s[..|r|]
    ensures forall i :: |r| <= i < |s| ==> IsSpace(s[i])
    ensures |r| > 0 ==> !IsSpace(r[|r| - 1])
  {
    if |s| > 0 && IsSpace(s[|s| - 1]) then TrimEnd(s[..|s| - 1]) else s
  }

  /** Everything of `s` outside the slice s[a..b] is whitespace. */
  predicate SpacesAround(s: string, a: int, b: int) {
    && 0 <= a <= b <= |s|
    && (forall i :: 0 <= i < a ==> IsSpace(s[i]))
    && (forall i :: b <= i < |s| ==> IsSpace(s[i]))
  }

  /** `str.strip()`: the slice of `s` left after removing surrounding whitespace. */
  function Strip(s: string): (r: string)
    ensures exists a, b :: SpacesAround(s, a, b) && r == s[a..b]
    ensures |r| > 0 ==> !IsSpace(r[0]) && !IsSpace(r[|r| - 1])
  {
    var t := TrimStart(s);
    var r := TrimEnd(t);
    var a, b := |s| - |t|, |s| - |t| + |r|;
    StripSlice(s, t, r, a, b);
    assert SpacesAround(s, a, b) && r == s[a..b];
    r
  }

  /** Trimming the front, then the back, leaves the slice s[a..b] between two whitespace runs. */
  lemma StripSlice(s: string, t: string, r: string, a: int, b: int)
    requires |t| <= |s| && t == s[|s| - |t|..]
    requires forall i :: 0 <= i < |s| - |t| ==> IsSpace(s[i])
    requires |t| > 0 ==> !IsSpace(t[0])
    requires |r| <= |t| && r == t[..|r|]
    requires forall i :: |r| <= i < |t| ==> IsSpace(t[i])
    requires |r| > 0 ==> !IsSpace(r[|r| - 1])
    requires a == |s| - |t| && b == a + |r|
    ensures SpacesAround(s, a, b) && r == s[a..b]
    ensures |r| > 0 ==> !IsSpace(r[0]) && !IsSpace(r[|r| - 1])
  {
    assert r == s[a..b] by {
      assert t == s[a..];
      assert r == t[..|r|];
    }
    assert forall i :: b <= i < |s| ==> IsSpace(s[i]) by {
      forall i | b <= i < |s| ensures IsSpace(s[i]) {
        assert s[i] == t[i - a];
      }
    }
    assert |r| > 0 ==> r[0] == t[0];
    assert 0 <= a <= b <= |s|;
  }
}

=== FILE: wrappers.dfy ===
/** Failure-compatible Option and Result types used throughout the model. */
module Wrappers {

  datatype Option<+T> = None | Some(value: T) {
    predicate IsFailure() { None? }

    function PropagateFailure<U>(): Option<U>
      requires None?
    {
      None
    }

    function Extract(): T
      requires Some?
    {
      value
    }
  }

  datatype Result<+R, +E> = Success(value: R) | Failure(error: E) {
    predicate IsFailure() { Failure? }

    function PropagateFailure<U>(): Result<U, E>
      requires Failure?
    {
      Failure(error)
    }

    function Extract(): R
      requires Success?
    {
      value
    }
  }
}
